=== FILE: README.md ===
# Plantrix task tree — a Dafny model

This project models the logic core of Plantrix, a hierarchical note and task
planner. Users keep a tree of tasks (pages, sub-pages, sub-sub-pages…). The
tree is stored as a flat list of records. Each record carries a `parentId`
reference and an `orderIndex` position among its siblings. The model covers:

- **The client task store** (`src/store/taskStore.ts`), module `TaskStore`,
  with `TaskTree` for `buildTaskTree`. Every action is a pure function from
  one store state to the next:
  - `buildTaskTree` turns the flat records into a forest sorted by
    `orderIndex` at every depth;
  - `addTask` appends a record at the end of its sibling group;
  - `updateTask` merges fields into a record;
  - `deleteTask` removes a record together with its whole subtree;
  - `toggleTaskCompletion` flips a record's completion flag;
  - `moveTask` re-parents a record;
  - `getSelectedTask` returns the selected record.
- **The server move handler** (`src/app/api/tasks/move/route.ts`), module
  `MoveRoute`. Its transaction has three steps:
  - close the gap in the old sibling group;
  - open a slot in the new group;
  - write the moved record.

  The model also covers the handler's 401 and 500 outcomes.
- **The client account store** (`src/store/authStore.ts`), module
  `AuthStore`: `register`, `login`, `quickLogin` and `logout` over
  `{user, isAuthenticated, users}`.
- **The registration handler** (`src/app/api/auth/register/route.ts`),
  module `RegisterRoute`. It covers the password pattern as a predicate, and
  the check order: required fields, then strength, then email uniqueness, then
  the new row.
- **String helpers** (`src/lib/utils.ts`), module `Utils`: `getLevelPrefix`,
  `truncateText` (with JavaScript's `trim`) and `getTaskColorVariant`.

Shared modules:

- `TaskModel` holds the task record, the store inputs, first-match lookup and
  sibling groups.
- `Hierarchy` holds depth along the parent chain and the well-formedness
  invariant.
- `OrderSort` holds the stable sort by `orderIndex`.
- `Wrappers` holds `Option` and `Result`.

**Identifiers.** Ids are non-empty strings. As a result, the falsy test
`!task.parentId` in `buildTaskTree` becomes `parentId.None?`. An absent
parent, whether `null` or `undefined` in the source, is the single value
`None`. So a strict comparison of two absent parents, as in the sibling
count of `addTask`, is always true in the model (see "## Left out").

**Store invariants.** With unique ids, the source's recursive
`getAllDescendants` recurses without end only when the deleted id itself lies
on a `parentId` cycle. A cycle elsewhere in the store does not stop a delete.
The model is narrower: `deleteTask` requires `WellFormed`, meaning that ids
are unique and that every parent chain ends within `|tasks|` steps. Stores
with a cycle anywhere are outside the model of `deleteTask`, even the ones the
source deletes from without trouble. `moveTask` can create such a store.
`buildTaskTree` needs only unique ids, because a cycle is never reached from
a root.

**Parameters.** Three values come from outside the logic, so the model takes
them as parameters:
- generated ids (`generateId`, `user_${Date.now()}`, database keys);
- timestamps (`new Date()`);
- the bcrypt hash.

**Behaviour worth noting.**
- The only caller of the client `moveTask`, `TaskLayout`'s drag handler,
  passes the raw drag event as `taskId` and leaves `newParentId` and
  `newOrderIndex` undefined. No record's id equals the event, so that call
  changes no record.
- `buildTaskTree` drops a record whose parent is missing (lemma
  `DanglingRecordsVanish`). It does not promote that record to a root.
- `addTask` does not select the new record.
- The client `moveTask` does not renumber siblings and does not cascade
  `level` to descendants (lemma `MoveTaskDoesNotReindex`).
- Neither `moveTask` nor the move route rejects a cycle-forming move. Moving
  a root under its own child gives the store a `parentId` cycle.
- `deleteTask` sets the selection to `null`. It never selects a sibling, the
  parent or a root instead.

## Model

| member | source | states |
|---|---|---|
| `TaskTree.BuildTaskTree` | src/store/taskStore.ts:25-60 | The roots are exactly the records without a parent reference, stably sorted by `orderIndex`. Every node, at every depth, shows a record of the input, and its child list is exactly the records naming it as parent, stably sorted. |
| `TaskTree.DanglingRecordsVanish` | src/store/taskStore.ts:35-46 | A record whose `parentId` names no present record appears nowhere in the built forest. |
| `TaskTree.RootedRecordsShown` | src/store/taskStore.ts:29-46 | Every record whose parent chain reaches a root appears in the built forest. |
| `TaskTree.RootShown` | src/store/taskStore.ts:35-38 | Every record without a parent reference appears in the built forest. |
| `TaskTree.ForestSound` | src/store/taskStore.ts:35-46 | Every node of the forest is a record of the input whose parent reference is absent or present. |
| `OrderSort.SortByOrder` | src/store/taskStore.ts:49-50 | The comparator sort yields a sorted permutation (multiset-equal). Records with equal `orderIndex` keep their input order (stability). |
| `OrderSort.InsertStable` | src/store/taskStore.ts:49-50 | Insertion keeps the relative order of records with equal `orderIndex`. |
| `TaskStore.AddTask` | src/store/taskStore.ts:119-135 | Exactly one record is appended and all prior records are unchanged. The new record carries the given title, parent and level; its content is the given one or `''`; it is not completed. Its `orderIndex` is the number of records that already had the same parent. The selection does not change. |
| `TaskStore.AddKeepsContiguous` | src/store/taskStore.ts:126-134 | If a sibling group is numbered `0..n-1` before `addTask`, it is still numbered that way after. |
| `TaskStore.AddKeepsWellFormed` | src/store/taskStore.ts:119-134 | With a fresh id, `addTask` keeps ids unique and every parent chain finite. |
| `TaskStore.UpdateTask` | src/store/taskStore.ts:137-145 | Length and order are preserved. Records with another id are identical afterwards. A record with the input's id takes each supplied field, keeps each omitted field, and gets a new `updatedAt`. |
| `TaskStore.UpdateIdempotent` | src/store/taskStore.ts:137-145 | Applying the same update twice equals applying it once. |
| `TaskStore.ToggleTaskCompletion` | src/store/taskStore.ts:170-178 | Only records with the id change. In them only `isCompleted` (negated) and `updatedAt` change. |
| `TaskStore.ToggleTwice` | src/store/taskStore.ts:170-178 | Toggling twice restores every record except its `updatedAt` stamp. |
| `TaskStore.MovedLevel` | src/store/taskStore.ts:189-191 | The level is 1 for no new parent or a missing one. Otherwise it is the first matching parent's level plus 1. |
| `TaskStore.MoveTask` | src/store/taskStore.ts:182-198 | Only the moved record changes. It takes the new parent and position verbatim, plus the computed level. Every other record, siblings and descendants included, is identical. |
| `TaskStore.MoveBackRestores` | src/store/taskStore.ts:182-198 | Moving a record back to its old parent and position undoes a move, up to `updatedAt`. This holds when the record's level agreed with its parent. |
| `TaskStore.MoveTaskDoesNotReindex` | src/store/taskStore.ts:182-198 | Concrete case: two roots numbered 0 and 1; moving the first to position 1 leaves both numbered 1, so the group is no longer contiguous. |
| `TaskStore.GetAllDescendants` | src/store/taskStore.ts:148-157 | The walk terminates on a well-formed store, and every id it returns names a record. |
| `TaskStore.DescendantsSound` | src/store/taskStore.ts:148-157 | Every record the downward walk collects has the start id on its parent chain. |
| `TaskStore.DescendantsComplete` | src/store/taskStore.ts:148-157 | Every record with the start id on its parent chain is collected by the downward walk. |
| `TaskStore.DescendantsClosed` | src/store/taskStore.ts:148-157 | A child of a collected record is collected. |
| `TaskStore.DoomedIds` | src/store/taskStore.ts:160 | A record's id is in the delete list exactly when the record is the target or lies below it. |
| `TaskStore.Survivors` | src/store/taskStore.ts:162 | The kept records are exactly those whose id is not in the list, in their original relative order. Each kept record occurs as often as before; each removed one occurs zero times. |
| `TaskStore.DeleteTask` | src/store/taskStore.ts:147-167 | Exactly the target and its transitive descendants are removed, and survivors keep their relative order. Each surviving record keeps its multiplicity. No survivor's present parent is removed. The selection becomes `null` exactly when it pointed into the removed subtree; otherwise it is unchanged. |
| `TaskStore.GetSelectedTask` | src/store/taskStore.ts:204-207 | The result is the first record with the selected id. It is `null` exactly when nothing is selected or no record has that id. |
| `MoveRoute.FindOwned` | src/app/api/tasks/move/route.ts:27-33 | The lookup finds a row with the task id and the user. It finds nothing exactly when the user owns no such row. |
| `MoveRoute.TransactionRowwise` | src/app/api/tasks/move/route.ts:35-76 | The moved row takes the payload's parent, level and index, whatever steps 2-3 did to it. Each other row of the user is shifted down by one if it followed the old position in the old group, then up by one if it is at or after the target in the new group. Other users' rows are untouched. |
| `MoveRoute.Post` | src/app/api/tasks/move/route.ts:13-83 | No session: 401 and the table is unchanged. Task not owned: 500 with the not-found message and the table is unchanged. Otherwise: success. The moved row gets the payload fields, other rows change at most their `orderIndex`, and rows outside both sibling groups are identical. |
| `MoveRoute.UserTasksAfterMove` | src/app/api/tasks/move/route.ts:39-76 | After a move, the user's records are the user's earlier records, each reindexed. |
| `MoveRoute.OldGroupContiguous` | src/app/api/tasks/move/route.ts:38-50 | After a move to another group, the old group is still numbered `0..n-1`. |
| `MoveRoute.NewGroupContiguous` | src/app/api/tasks/move/route.ts:52-76 | After a move from another group with the target in `0..n`, the new group is numbered `0..n`. |
| `MoveRoute.SameGroupContiguous` | src/app/api/tasks/move/route.ts:38-76 | A move within one group, with the target in `0..n-1`, keeps it numbered `0..n-1`. |
| `MoveRoute.MoveKeepsGroupsContiguous` | src/app/api/tasks/move/route.ts:24-77 | The transaction's integrity promise. Suppose both sibling groups are numbered `0..n-1` and the target index lies within the destination group without the moved record. Then the move succeeds in the model (foreign keys are not modelled, see `MoveRoute.Post` under "## Left out") and both groups are still numbered `0..n-1`, also when they are the same group. |
| `AuthStore.FindByEmail` | src/store/authStore.ts:51 | The result is the first user with the email. It is nothing exactly when no user has it. |
| `AuthStore.Register` | src/store/authStore.ts:36-46 | A taken email gives `success = false` with the "already in use" message, and the state is unchanged. A fresh email appends exactly one user with the given fields and the new id, signs that user in, and reports success. |
| `AuthStore.Login` | src/store/authStore.ts:48-57 | Login succeeds exactly when some user has the email, and then signs in the first such user without changing `users`. A failure leaves the state unchanged. The result does not depend on the password. |
| `AuthStore.LoginIgnoresPassword` | src/store/authStore.ts:48-56 | Two logins with the same email and different passwords give the same result. |
| `AuthStore.QuickLogin` | src/store/authStore.ts:59-67 | The fixed development account is signed in and `users` is unchanged. |
| `AuthStore.Logout` | src/store/authStore.ts:69 | Afterwards nobody is signed in, `isAuthenticated` is false and `users` is unchanged. |
| `AuthStore.RegisterKeepsUniqueEmails` | src/store/authStore.ts:37-42 | Registration keeps the emails in `users` pairwise distinct. |
| `AuthStore.InitialValid` | src/store/authStore.ts:32-34 | The initial state has distinct emails and `isAuthenticated == (user != null)`. |
| `AuthStore.ActionsKeepValid` | src/store/authStore.ts:36-69 | Distinct emails and `isAuthenticated == (user != null)` survive every action. |
| `RegisterRoute.TestPassword` | src/app/api/auth/register/route.ts:5 | The one-pass scan accepts a password exactly when the pattern does. That means: at least 8 characters, all from `[A-Za-z0-9@$!%*?&]`, with at least one lower-case letter, one upper-case letter, one digit and one of `@$!%*?&`. |
| `RegisterRoute.FindByEmail` | src/app/api/auth/register/route.ts:23-27 | The lookup finds a row with the email. It finds nothing exactly when no row has it. |
| `RegisterRoute.Post` | src/app/api/auth/register/route.ts:7-46 | A missing or empty email or password gives 400 first. A weak password gives 400 next. A taken email gives 400 after that. Each refusal leaves the table unchanged. Registration happens exactly when all three checks pass: one row with the hashed password is appended, and the response carries every field of that row except the password. |
| `RegisterRoute.PostKeepsUniqueEmails` | src/app/api/auth/register/route.ts:23-41 | A registration keeps the table's emails pairwise distinct. |
| `RegisterRoute.SecondRegistrationRefused` | src/app/api/auth/register/route.ts:23-31 | Once an email is registered, registering it again with any strong password is refused with the "already exists" message and writes nothing. |
| `Utils.LevelPrefix` | src/lib/utils.ts:26-28 | A negative level throws a RangeError. Otherwise the result is exactly `level` characters, all `*`. |
| `Utils.PrefixExtends` | src/lib/utils.ts:26-28 | A deeper level's prefix extends a shallower level's prefix by the difference in stars. |
| `Utils.Trim` | src/lib/utils.ts:33 | The result is a contiguous piece of the input with only white space cut from either end, and neither end of it is white space. |
| `Utils.TrimOfUnique` | src/lib/utils.ts:33 | At most one piece of a string is bounded by white space on both sides and has no white space at either end. So the trim is determined. |
| `Utils.TrimIdempotent` | src/lib/utils.ts:33 | Trimming twice equals trimming once. |
| `Utils.TruncateText` | src/lib/utils.ts:31-34 | Text no longer than the limit (50 by default) is returned unchanged. Longer text becomes the trim of its first `max(limit, 0)` characters followed by `...`: only white space is cut from that prefix, and by `TrimOfUnique` the body is determined. So the result is at most `max(limit, 0) + 3` long. |
| `Utils.TaskColorVariant` | src/lib/utils.ts:59-71 | Success classes appear exactly when the task is completed, whatever the selection. Primary classes appear exactly when it is open and selected. The neutral classes appear exactly when it is neither. Each of the four combinations of the two flags gives its own class string. |

## Left out

- The React UI (components, pages, the editor's computation of `parentId` and `level`), and `TaskLayout`'s drag handler, which passes the raw drag event to `moveTask` as its `taskId` (src/components/TaskLayout.tsx:31), so that call changes no record. They are presentation, not store logic.
- `setTasks`, `setSelectedTask`, `setLoading`, `setError` and `getTaskTree`. The first four assign one field; the last calls `buildTaskTree`, which is modelled.
- The store's initial mock records. They are sample data, not behaviour.
- Search highlighting, the confirm-delete flow, optimistic rollback, cycle rejection and the level cascade on move. `taskStore.ts` and `src/app/api/tasks/move/route.ts` implement none of them. `SearchBar` and `ConfirmDeleteDialog` read store members (`searchTerm`, `confirmDelete`, `taskToDeleteId` and others) that `taskStore.ts` does not define.
- `TaskStore.DeleteTask`, `TaskStore.GetAllDescendants`: require a well-formed store (unique ids, finite parent chains). With unique ids, the source recurses without end only when the deleted id lies on a parent cycle, and that outcome is not modelled. A delete from a store whose only cycles lie elsewhere ends in the source, but such stores are also outside the model, including those `moveTask` produces.
- `TaskTree.BuildTaskTree`: requires unique ids. With duplicate ids the source's map keeps the last record per id; that is not modelled.
- `TaskStore.AddTask`: the source counts siblings with `t.parentId === input.parentId`, and `null === undefined` is false in JavaScript. So a root added with an `undefined` parent, on a store whose roots carry `null`, gets `orderIndex` 0 in the source, while the model counts every root. The editor's callers (src/components/TaskEditor.tsx:107, :114 and :121) pass either the selected record's stored `parentId`, or `null`, or an existing record's id, and the store's records carry `null` for a root.
- `TaskStore.UpdateTask`: a field present with the value `undefined` overwrites in a JavaScript spread. The model treats it as absent.
- `TaskStore.UpdateTask`: the editor also passes fields that the record type lacks: `description` (src/components/TaskEditor.tsx:36), `imageUrls` (lines 156 and 165) and `emoji` (line 223). The spread stores them on the record. The model's `Task` and `UpdateTaskInput` have no such fields, so these writes are not modelled.
- `AuthStore` persistence (the `persist` middleware writing to local storage) and `initialize`, which does nothing.
- Prisma, next-auth and bcrypt. The table is a sequence of rows, the session is an optional user id, and the hash and generated keys are parameters. Foreign-key constraints, the other task routes and concurrent transactions are not modelled.
- `RegisterRoute.Post`: the 500 path (a thrown database or JSON error) is left out, and so are non-string JSON values for the fields.
- `MoveRoute.Post`: a malformed JSON body is not modelled. Nor is the foreign-key refusal of a `newParentId` that names no row: the database rejects the final update, the transaction rolls back and the source answers 500, where the model answers `Moved`. The 500 path for a task the user does not own is modelled.
- `formatDate`, `formatFileSize`, `getLevelIndentation`, `debounce` and `cn` use locale formatting, floating point, timers or a class-merging library.
- `Utils.LevelPrefix`: levels are integers. The truncation of fractional counts and the `Infinity` case of `repeat` are not modelled.
- `Utils.TruncateText`: lengths count Unicode characters, where JavaScript counts UTF-16 code units. They differ only for characters outside the Basic Multilingual Plane.

=== FILE: auth_store.dfy ===
/** The client-side account store of `src/store/authStore.ts`: an in-memory
    user list, the current user and an authentication flag, changed by
    `register`, `login`, `quickLogin` and `logout`. The generated user id
    (`user_` followed by the clock) is a parameter. */
module AuthStore {
  import opened Wrappers

  datatype User = User(id: string, email: string, firstName: string, lastName: string)

  /** The argument of `register`: a user without its id. */
  datatype UserData = UserData(email: string, firstName: string, lastName: string)

  datatype AuthState = AuthState(user: Option<User>, isAuthenticated: bool, users: seq<User>)

  /** What `register` and `login` hand back to the page. */
  datatype Outcome = Outcome(success: bool, message: string)

  const EmailTakenMessage: string := "Bu e-posta adresi zaten kullan\U{0131}l\U{0131}yor."
  const RegisteredMessage: string := "Kay\U{0131}t ba\U{015F}ar\U{0131}l\U{0131}!"
  const LoggedInMessage: string := "Giri\U{015F} ba\U{015F}ar\U{0131}l\U{0131}!"
  const LoginFailedMessage: string := "Kullan\U{0131}c\U{0131} bulunamad\U{0131} veya \U{015F}ifre yanl\U{0131}\U{015F}."

  /** The fixed account `quickLogin` signs in with. */
  const DevUser: User := User("dev_user", "dev@plantrix.com", "Geli\U{015F}tirici", "Modu")

  /** The store's state before any action: nobody signed in, no users. */
  const InitialState: AuthState := AuthState(None, false, [])

  /** Some user in `users` has this email. */
  predicate EmailTaken(users: seq<User>, email: string) {
    exists i :: 0 <= i < |users| && users[i].email == email
  }

  predicate UniqueEmails(users: seq<User>) {
    forall i, j :: 0 <= i < |users| && 0 <= j < |users| && users[i].email == users[j].email ==> i == j
  }

  /** The two facts the store keeps: no email is registered twice, and the flag
      says exactly whether someone is signed in. */
  predicate Valid(s: AuthState) {
    UniqueEmails(s.users) && s.isAuthenticated == s.user.Some?
  }

  /** `users.find(u => u.email === email)`: the first user with that email. */
  function FindByEmail(users: seq<User>, email: string): (r: Option<User>)
    ensures r.None? <==> !EmailTaken(users, email)
    ensures r.Some? ==> exists i :: 0 <= i < |users| && users[i] == r.value && r.value.email == email &&
                          forall j :: 0 <= j < i ==> users[j].email != email
  {
    if |users| == 0 then None
    else if users[0].email == email then Some(users[0])
    else
      var r := FindByEmail(users[1..], email);
      assert EmailTaken(users, email) ==> EmailTaken(users[1..], email) by {
        if EmailTaken(users, email) {
          var i :| 0 <= i < |users| && users[i].email == email;
          assert users[1..][i - 1] == users[i];
        }
      }
      assert r.Some? ==> exists i :: 0 <= i < |users| && users[i] == r.value && r.value.email == email &&
                           forall j :: 0 <= j < i ==> users[j].email != email by {
        if r.Some? {
          var i :| 0 <= i < |users[1..]| && users[1..][i] == r.value && r.value.email == email &&
                   forall j :: 0 <= j < i ==> users[1..][j].email != email;
          assert users[i + 1] == r.value;
          forall j | 0 <= j < i + 1 ensures users[j].email != email {
            if j > 0 { assert users[j] == users[1..][j - 1]; }
          }
        }
      }
      r
  }

  /** `register`: refuses a taken email and leaves everything as it was;
      otherwise appends the new user and signs it in. */
  function Register(s: AuthState, data: UserData, newId: string): (out: (Outcome, AuthState))
    ensures EmailTaken(s.users, data.email) ==> out == (Outcome(false, EmailTakenMessage), s)
    ensures !EmailTaken(s.users, data.email) ==>
      var u := User(newId, data.email, data.firstName, data.lastName);
      out == (Outcome(true, RegisteredMessage), AuthState(Some(u), true, s.users + [u]))
  {
    match FindByEmail(s.users, data.email)
    case Some(_) => (Outcome(false, EmailTakenMessage), s)
    case None =>
      var newUser := User(newId, data.email, data.firstName, data.lastName);
      var s1 := s.(users := s.users + [newUser]);
      (Outcome(true, RegisteredMessage), s1.(user := Some(newUser), isAuthenticated := true))
  }

  /** `login`: the password is never looked at; the first user with the email
      is signed in, and an unknown email leaves the state alone. */
  function Login(s: AuthState, email: string, password: Option<string>): (out: (Outcome, AuthState))
    ensures out.0.success <==> EmailTaken(s.users, email)
    ensures !out.0.success ==> out == (Outcome(false, LoginFailedMessage), s)
    ensures out.0.success ==>
      && out.0.message == LoggedInMessage
      && out.1.users == s.users && out.1.isAuthenticated
      && out.1.user.Some? && out.1.user.value.email == email
      && exists i :: 0 <= i < |s.users| && s.users[i] == out.1.user.value &&
           forall j :: 0 <= j < i ==> s.users[j].email != email
  {
    match FindByEmail(s.users, email)
    case Some(found) => (Outcome(true, LoggedInMessage), s.(user := Some(found), isAuthenticated := true))
    case None => (Outcome(false, LoginFailedMessage), s)
  }

  /** `quickLogin`: signs in the fixed development account without touching the
      user list (the account need not be in it). */
  function QuickLogin(s: AuthState): (r: AuthState)
    ensures r.users == s.users && r.isAuthenticated && r.user == Some(DevUser)
  {
    s.(user := Some(DevUser), isAuthenticated := true)
  }

  /** `logout`: nobody is signed in afterwards; the user list is kept. */
  function Logout(s: AuthState): (r: AuthState)
    ensures r.users == s.users && !r.isAuthenticated && r.user.None?
  {
    s.(user := None, isAuthenticated := false)
  }

  /** The outcome of `login` depends on the email only. */
  lemma LoginIgnoresPassword(s: AuthState, email: string, p: Option<string>, q: Option<string>)
    ensures Login(s, email, p) == Login(s, email, q)
  {
  }

  /** Registering a fresh email keeps the emails distinct. */
  lemma RegisterKeepsUniqueEmails(s: AuthState, data: UserData, newId: string)
    requires UniqueEmails(s.users)
    ensures UniqueEmails(Register(s, data, newId).1.users)
  {
    var users' := Register(s, data, newId).1.users;
    if !EmailTaken(s.users, data.email) {
      assert forall k :: 0 <= k < |s.users| ==> users'[k] == s.users[k] && users'[k].email != data.email;
      assert users'[|s.users|].email == data.email;
    }
  }

  /** The store's two facts hold at the start and after every action. */
  lemma InitialValid()
    ensures Valid(InitialState)
  {
  }

  lemma ActionsKeepValid(s: AuthState, data: UserData, newId: string, email: string, password: Option<string>)
    requires Valid(s)
    ensures Valid(Register(s, data, newId).1)
    ensures Valid(Login(s, email, password).1)
    ensures Valid(QuickLogin(s))
    ensures Valid(Logout(s))
  {
    RegisterKeepsUniqueEmails(s, data, newId);
  }
}

=== FILE: hierarchy.dfy ===
/** The parent relation of a flat record collection: parent lookup, depth along
    the parent chain, and the acyclicity the recursive store operations rely on. */
module Hierarchy {
  import opened Wrappers
  import opened TaskModel

  /** The record `t.parentId` names (the first with that identifier), if any. */
  function ParentOf(tasks: seq<Task>, t: Task): Option<Task> {
    if t.parentId.Some? then Lookup(tasks, t.parentId.value) else None
  }

  /** Number of records on `t`'s parent chain, `t` included, when that chain
      reaches a root or a dangling parent reference within `fuel` parent steps. */
  function DepthWithin(tasks: seq<Task>, t: Task, fuel: nat): (r: Option<nat>)
    ensures r.Some? ==> 1 <= r.value <= fuel + 1
    decreases fuel
  {
    match ParentOf(tasks, t)
    case None => Some(1)
    case Some(p) =>
      if fuel == 0 then None
      else
        match DepthWithin(tasks, p, fuel - 1)
        case None => None
        case Some(d) => Some(d + 1)
  }

  /** Depth of `t`: a chain longer than the collection can only be a cycle. */
  function Depth(tasks: seq<Task>, t: Task): Option<nat> {
    DepthWithin(tasks, t, |tasks|)
  }

  /** Every record's parent chain ends, at a root or at a dangling reference. */
  predicate Acyclic(tasks: seq<Task>) {
    forall i :: 0 <= i < |tasks| ==> Depth(tasks, tasks[i]).Some?
  }

  /** The store invariant the cascading delete needs to terminate. */
  predicate WellFormed(tasks: seq<Task>) {
    UniqueIds(tasks) && Acyclic(tasks)
  }

  /** Once the fuel covers the chain, the depth does not depend on the fuel. */
  lemma {:induction false} DepthFuel(tasks: seq<Task>, t: Task, f: nat, g: nat)
    requires DepthWithin(tasks, t, f).Some?
    requires DepthWithin(tasks, t, f).value <= g + 1
    ensures DepthWithin(tasks, t, g) == DepthWithin(tasks, t, f)
    decreases f
  {
    match ParentOf(tasks, t)
    case None =>
    case Some(p) =>
      DepthFuel(tasks, p, f - 1, g - 1);
  }

  /** With a parent, the chain within `g + 1` steps is the parent's chain within
      `g` steps, one longer. */
  lemma DepthUnfold(tasks: seq<Task>, t: Task, p: Task, g: nat)
    requires ParentOf(tasks, t) == Some(p)
    ensures p in tasks
    ensures DepthWithin(tasks, t, g + 1) ==
      if DepthWithin(tasks, p, g).None? then None else Some(DepthWithin(tasks, p, g).value + 1)
  {
  }

  /** One parent step: a record whose parent's chain ends within `f` steps
      ends within `f + 1`, one level deeper. */
  lemma DepthStep(tasks: seq<Task>, t: Task, p: Task, f: nat)
    requires ParentOf(tasks, t) == Some(p) && DepthWithin(tasks, p, f).Some?
    ensures DepthWithin(tasks, t, f + 1) == Some(DepthWithin(tasks, p, f).value + 1)
  {
  }

  /** A child lies exactly one level below the record its `parentId` names. */
  lemma ChildDepth(tasks: seq<Task>, c: Task, x: Task)
    requires c in tasks && c.parentId == Some(x.id) && Lookup(tasks, x.id) == Some(x)
    requires Depth(tasks, c).Some?
    ensures Depth(tasks, x).Some? && Depth(tasks, c).value == Depth(tasks, x).value + 1
  {
    assert ParentOf(tasks, c) == Some(x);
    DepthFuel(tasks, x, |tasks| - 1, |tasks|);
  }

  /** The identifiers carried by the records of `s`. */
  function IdSet(s: seq<Task>): (r: set<Id>)
    ensures |r| <= |s|
    ensures forall t :: t in s ==> t.id in r
  {
    if |s| == 0 then {}
    else
      assert forall t :: t in s ==> t == s[0] || t in s[1..];
      {s[0].id} + IdSet(s[1..])
  }

  lemma {:induction false} IdSetExcludes(s: seq<Task>, id: Id)
    requires forall k :: 0 <= k < |s| ==> s[k].id != id
    ensures id !in IdSet(s)
  {
    if |s| > 0 {
      IdSetExcludes(s[1..], id);
    }
  }

  lemma {:induction false} IdSetMono(a: seq<Task>, b: seq<Task>)
    requires forall k :: 0 <= k < |a| ==> a[k] in b
    ensures IdSet(a) <= IdSet(b)
  {
    if |a| > 0 {
      IdSetMono(a[1..], b);
    }
  }

  lemma {:induction false} DistinctIdSet(s: seq<Task>)
    requires forall i, j :: 0 <= i < j < |s| ==> s[i].id != s[j].id
    ensures |IdSet(s)| == |s|
  {
    if |s| > 0 {
      var tail := s[1..];
      assert forall k :: 0 <= k < |tail| ==> tail[k] == s[k + 1];
      DistinctIdSet(tail);
      IdSetExcludes(tail, s[0].id);
    }
  }

  /** The records of `t`'s parent chain, `t` first, the root or dangling end last. */
  function Chain(tasks: seq<Task>, t: Task, f: nat): (c: seq<Task>)
    requires t in tasks && DepthWithin(tasks, t, f).Some?
    ensures |c| == DepthWithin(tasks, t, f).value && c[0] == t
    ensures forall i :: 0 <= i < |c| ==> c[i] in tasks
    ensures forall i :: 0 <= i < |c| - 1 ==> ParentOf(tasks, c[i]) == Some(c[i + 1])
    ensures ParentOf(tasks, c[|c| - 1]).None?
    decreases f
  {
    match ParentOf(tasks, t)
    case None => [t]
    case Some(p) => [t] + Chain(tasks, p, f - 1)
  }

  /** A finite chain never revisits a record: its end has no parent, and every
      earlier link has one. */
  lemma {:induction false} ChainNoRepeat(tasks: seq<Task>, c: seq<Task>, i: nat, j: nat)
    requires |c| > 0
    requires forall k :: 0 <= k < |c| - 1 ==> ParentOf(tasks, c[k]) == Some(c[k + 1])
    requires ParentOf(tasks, c[|c| - 1]).None?
    requires i < j < |c|
    ensures c[i] != c[j]
    decreases |c| - j
  {
    assert ParentOf(tasks, c[i]) == Some(c[i + 1]);
    if j < |c| - 1 {
      ChainNoRepeat(tasks, c, i + 1, j + 1);
    }
  }

  /** Pigeonhole: with unique identifiers a finite parent chain never revisits a
      record, so no chain is longer than the collection. */
  lemma ChainBound(tasks: seq<Task>, t: Task, f: nat)
    requires UniqueIds(tasks) && t in tasks && DepthWithin(tasks, t, f).Some?
    ensures DepthWithin(tasks, t, f).value <= |tasks|
  {
    var c := Chain(tasks, t, f);
    forall i, j | 0 <= i < j < |c| ensures c[i].id != c[j].id {
      ChainNoRepeat(tasks, c, i, j);
      var a :| 0 <= a < |tasks| && tasks[a] == c[i];
      var b :| 0 <= b < |tasks| && tasks[b] == c[j];
    }
    DistinctIdSet(c);
    IdSetMono(c, tasks);
    assert |IdSet(c)| <= |IdSet(tasks)| by {
      SubsetCard(IdSet(c), IdSet(tasks));
    }
  }

  lemma SubsetCard<T>(a: set<T>, b: set<T>)
    requires a <= b
    ensures |a| <= |b|
  {
    assert b == a + (b - a);
  }
}

=== FILE: move_route.dfy ===
/** The `POST` handler of `src/app/api/tasks/move/route.ts`: inside one
    transaction it closes the gap in the old sibling group, opens a slot in the
    new one and writes the moved record. The database is the sequence of rows
    of the task table; the session is its user id, if any. */
module MoveRoute {
  import opened Wrappers
  import opened TaskModel

  /** One row of the task table: its owner and the record. */
  datatype Row = Row(userId: Id, task: Task)

  /** The request body. */
  datatype MovePayload = MovePayload(taskId: Id, newParentId: Option<Id>, newOrderIndex: int, newLevel: int)

  /** The three responses: 401, 200 with a success message, 500 with the error's message. */
  datatype Response = Unauthenticated | Moved | ServerError(message: string)

  const NotFoundMessage: string := "Task not found or user does not have permission."

  /** No two rows share a primary key. */
  predicate UniqueRowIds(db: seq<Row>) {
    forall i, j :: 0 <= i < |db| && 0 <= j < |db| && db[i].task.id == db[j].task.id ==> i == j
  }

  /** Some row with id `taskId` belongs to `userId`. */
  predicate Owns(db: seq<Row>, taskId: Id, userId: Id) {
    exists i :: 0 <= i < |db| && db[i].task.id == taskId && db[i].userId == userId
  }

  /** `findUnique({ where: { id: taskId, userId } })`. */
  function FindOwned(db: seq<Row>, taskId: Id, userId: Id): (r: Option<Row>)
    ensures r.Some? ==> r.value in db && r.value.task.id == taskId && r.value.userId == userId
    ensures r.None? <==> !Owns(db, taskId, userId)
  {
    if |db| == 0 then None
    else if db[0].task.id == taskId && db[0].userId == userId then Some(db[0])
    else
      assert Owns(db, taskId, userId) ==> Owns(db[1..], taskId, userId) by {
        if Owns(db, taskId, userId) {
          var i :| 0 <= i < |db| && db[i].task.id == taskId && db[i].userId == userId;
          assert db[1..][i - 1] == db[i];
        }
      }
      FindOwned(db[1..], taskId, userId)
  }

  /** The row belongs to sibling group `parentId` of user `userId`. */
  predicate InGroup(r: Row, userId: Id, parentId: Option<Id>) {
    r.userId == userId && r.task.parentId == parentId
  }

  /** Step 2: `updateMany` decrementing the old group's records after the moved one. */
  function CloseGap(db: seq<Row>, userId: Id, oldParentId: Option<Id>, oldOrderIndex: int): (r: seq<Row>)
    ensures |r| == |db|
    ensures forall i :: 0 <= i < |db| ==>
      r[i] == if InGroup(db[i], userId, oldParentId) && db[i].task.orderIndex > oldOrderIndex
              then db[i].(task := db[i].task.(orderIndex := db[i].task.orderIndex - 1))
              else db[i]
  {
    seq(|db|, i requires 0 <= i < |db| =>
      if InGroup(db[i], userId, oldParentId) && db[i].task.orderIndex > oldOrderIndex
      then db[i].(task := db[i].task.(orderIndex := db[i].task.orderIndex - 1))
      else db[i])
  }

  /** Step 3: `updateMany` incrementing the new group's records at or after the target. */
  function OpenSlot(db: seq<Row>, userId: Id, newParentId: Option<Id>, newOrderIndex: int): (r: seq<Row>)
    ensures |r| == |db|
    ensures forall i :: 0 <= i < |db| ==>
      r[i] == if InGroup(db[i], userId, newParentId) && db[i].task.orderIndex >= newOrderIndex
              then db[i].(task := db[i].task.(orderIndex := db[i].task.orderIndex + 1))
              else db[i]
  {
    seq(|db|, i requires 0 <= i < |db| =>
      if InGroup(db[i], userId, newParentId) && db[i].task.orderIndex >= newOrderIndex
      then db[i].(task := db[i].task.(orderIndex := db[i].task.orderIndex + 1))
      else db[i])
  }

  /** Step 4: `update` of the row with primary key `taskId`. */
  function Place(db: seq<Row>, p: MovePayload): (r: seq<Row>)
    ensures |r| == |db|
    ensures forall i :: 0 <= i < |db| ==>
      r[i] == if db[i].task.id == p.taskId
              then db[i].(task := db[i].task.(parentId := p.newParentId, level := p.newLevel, orderIndex := p.newOrderIndex))
              else db[i]
  {
    seq(|db|, i requires 0 <= i < |db| =>
      if db[i].task.id == p.taskId
      then db[i].(task := db[i].task.(parentId := p.newParentId, level := p.newLevel, orderIndex := p.newOrderIndex))
      else db[i])
  }

  /** The transaction body: aborts (nothing written) when the user owns no such task. */
  function MoveTransaction(db: seq<Row>, userId: Id, p: MovePayload): Result<seq<Row>, string> {
    match FindOwned(db, p.taskId, userId)
    case None => Failure(NotFoundMessage)
    case Some(m) =>
      var afterGap := CloseGap(db, userId, m.task.parentId, m.task.orderIndex);
      var afterSlot := OpenSlot(afterGap, userId, p.newParentId, p.newOrderIndex);
      Success(Place(afterSlot, p))
  }

  /** What steps 2, 3 and 4 together do to one of the user's records, given the
      moved record's old parent and index. */
  function Reindex(t: Task, oldParentId: Option<Id>, oldOrderIndex: int, p: MovePayload): Task {
    if t.id == p.taskId then t.(parentId := p.newParentId, level := p.newLevel, orderIndex := p.newOrderIndex)
    else
      var k := if t.parentId == oldParentId && t.orderIndex > oldOrderIndex then t.orderIndex - 1 else t.orderIndex;
      var k' := if t.parentId == p.newParentId && k >= p.newOrderIndex then k + 1 else k;
      t.(orderIndex := k')
  }

  /** The three steps act row by row: the moved row is rewritten, the user's other
      rows are reindexed, other users' rows are left alone. */
  lemma TransactionRowwise(db: seq<Row>, u: Id, p: MovePayload, m: Row)
    requires FindOwned(db, p.taskId, u) == Some(m)
    ensures var db' := MoveTransaction(db, u, p).value;
      && |db'| == |db|
      && forall i :: 0 <= i < |db| ==>
           && db'[i].userId == db[i].userId
           && (db[i].task.id == p.taskId ==>
                 db'[i].task == db[i].task.(parentId := p.newParentId, level := p.newLevel, orderIndex := p.newOrderIndex))
           && (db[i].userId == u ==> db'[i].task == Reindex(db[i].task, m.task.parentId, m.task.orderIndex, p))
           && (db[i].userId != u && db[i].task.id != p.taskId ==> db'[i] == db[i])
  {
    var (op, oi) := (m.task.parentId, m.task.orderIndex);
    var a := CloseGap(db, u, op, oi);
    var b := OpenSlot(a, u, p.newParentId, p.newOrderIndex);
    var c := Place(b, p);
    assert MoveTransaction(db, u, p).value == c;
    forall i | 0 <= i < |db|
      ensures c[i].userId == db[i].userId
      ensures db[i].task.id == p.taskId ==>
        c[i].task == db[i].task.(parentId := p.newParentId, level := p.newLevel, orderIndex := p.newOrderIndex)
      ensures db[i].userId == u ==> c[i].task == Reindex(db[i].task, op, oi, p)
      ensures db[i].userId != u && db[i].task.id != p.taskId ==> c[i] == db[i]
    {
      RowThroughSteps(db[i], a[i], b[i], c[i], u, op, oi, p);
    }
  }

  /** The three steps applied to one row. */
  lemma RowThroughSteps(x: Row, a: Row, b: Row, c: Row, u: Id, op: Option<Id>, oi: int, p: MovePayload)
    requires a == if InGroup(x, u, op) && x.task.orderIndex > oi
                  then x.(task := x.task.(orderIndex := x.task.orderIndex - 1)) else x
    requires b == if InGroup(a, u, p.newParentId) && a.task.orderIndex >= p.newOrderIndex
                  then a.(task := a.task.(orderIndex := a.task.orderIndex + 1)) else a
    requires c == if b.task.id == p.taskId
                  then b.(task := b.task.(parentId := p.newParentId, level := p.newLevel, orderIndex := p.newOrderIndex))
                  else b
    ensures c.userId == x.userId
    ensures x.task.id == p.taskId ==>
      c.task == x.task.(parentId := p.newParentId, level := p.newLevel, orderIndex := p.newOrderIndex)
    ensures x.userId == u ==> c.task == Reindex(x.task, op, oi, p)
    ensures x.userId != u && x.task.id != p.taskId ==> c == x
  {
  }

  /** `POST /api/tasks/move`: the response and the table afterwards. */
  function Post(db: seq<Row>, session: Option<Id>, p: MovePayload): (out: (Response, seq<Row>))
    ensures session.None? ==> out == (Unauthenticated, db)
    ensures session.Some? && !Owns(db, p.taskId, session.value) ==> out == (ServerError(NotFoundMessage), db)
    ensures session.Some? && Owns(db, p.taskId, session.value) ==>
      var (u, m, db') := (session.value, FindOwned(db, p.taskId, session.value).value, out.1);
      && out.0 == Moved && |db'| == |db|
      && (forall i :: 0 <= i < |db| && db[i].task.id == p.taskId ==>
            db'[i] == db[i].(task := db[i].task.(parentId := p.newParentId, level := p.newLevel, orderIndex := p.newOrderIndex)))
      && (forall i :: 0 <= i < |db| && db[i].task.id != p.taskId ==>
            db'[i].userId == db[i].userId && db'[i].task == db[i].task.(orderIndex := db'[i].task.orderIndex))
      && (forall i ::
            (0 <= i < |db| && db[i].task.id != p.taskId &&
             !InGroup(db[i], u, m.task.parentId) && !InGroup(db[i], u, p.newParentId)) ==>
            db'[i] == db[i])
  {
    match session
    case None => (Unauthenticated, db)
    case Some(userId) =>
      match MoveTransaction(db, userId, p)
      case Failure(message) => (ServerError(message), db)
      case Success(db') =>
        TransactionRowwise(db, userId, p, FindOwned(db, p.taskId, userId).value);
        (Moved, db')
  }

  // ------------------------------------------------- contiguity of the groups

  /** The records of user `userId`, in table order. */
  function UserTasks(db: seq<Row>, userId: Id): (ts: seq<Task>)
    ensures forall t :: t in ts <==> exists i :: 0 <= i < |db| && db[i].userId == userId && db[i].task == t
  {
    if |db| == 0 then []
    else
      var rest := UserTasks(db[1..], userId);
      assert forall i :: 0 < i < |db| ==> db[i] == db[1..][i - 1];
      if db[0].userId == userId then [db[0].task] + rest else rest
  }

  function ReindexAll(ts: seq<Task>, oldParentId: Option<Id>, oldOrderIndex: int, p: MovePayload): (r: seq<Task>)
    ensures |r| == |ts| && forall i :: 0 <= i < |ts| ==> r[i] == Reindex(ts[i], oldParentId, oldOrderIndex, p)
  {
    seq(|ts|, i requires 0 <= i < |ts| => Reindex(ts[i], oldParentId, oldOrderIndex, p))
  }

  /** The user's records after a successful move are the reindexed records before it. */
  lemma {:induction false} UserTasksAfterMove(db: seq<Row>, db': seq<Row>, u: Id, op: Option<Id>, oi: int, p: MovePayload)
    requires |db'| == |db|
    requires forall i :: 0 <= i < |db| ==> db'[i].userId == db[i].userId
    requires forall i :: 0 <= i < |db| && db[i].userId == u ==> db'[i].task == Reindex(db[i].task, op, oi, p)
    ensures UserTasks(db', u) == ReindexAll(UserTasks(db, u), op, oi, p)
  {
    if |db| > 0 {
      UserTasksAfterMove(db[1..], db'[1..], u, op, oi, p);
      var rest := UserTasks(db[1..], u);
      if db[0].userId == u {
        assert ReindexAll([db[0].task] + rest, op, oi, p) == [db'[0].task] + ReindexAll(rest, op, oi, p);
      }
    }
  }

  lemma {:induction false} UserTasksUnique(db: seq<Row>, u: Id)
    requires UniqueRowIds(db)
    ensures UniqueIds(UserTasks(db, u))
  {
    if |db| > 0 {
      var tail := db[1..];
      assert UniqueRowIds(tail) by {
        forall i, j | 0 <= i < |tail| && 0 <= j < |tail| && tail[i].task.id == tail[j].task.id ensures i == j {
          assert tail[i] == db[i + 1] && tail[j] == db[j + 1];
        }
      }
      UserTasksUnique(tail, u);
      var rest := UserTasks(tail, u);
      if db[0].userId == u {
        var ts := [db[0].task] + rest;
        forall i, j | 0 <= i < |ts| && 0 <= j < |ts| && ts[i].id == ts[j].id ensures i == j {
          if i > 0 {
            assert ts[i] in rest;
            var a :| 0 <= a < |tail| && tail[a].userId == u && tail[a].task == ts[i];
            assert db[a + 1].task == ts[i];
          }
          if j > 0 {
            assert ts[j] in rest;
            var b :| 0 <= b < |tail| && tail[b].userId == u && tail[b].task == ts[j];
            assert db[b + 1].task == ts[j];
          }
          if i > 0 && j > 0 {
            assert rest[i - 1] == ts[i] && rest[j - 1] == ts[j];
          }
        }
      }
    }
  }

  /** The moved record leaves group `op` and joins group `np`; every other record
      keeps its group. */
  lemma ReindexGroups(ts: seq<Task>, m: nat, p: MovePayload, q: Option<Id>)
    requires m < |ts| && ts[m].id == p.taskId && UniqueIds(ts)
    ensures var r := ReindexAll(ts, ts[m].parentId, ts[m].orderIndex, p);
      && SiblingPositions(r, q) - {m} == SiblingPositions(ts, q) - {m}
      && (m in SiblingPositions(r, q) <==> p.newParentId == q)
  {
    var r := ReindexAll(ts, ts[m].parentId, ts[m].orderIndex, p);
    forall i | 0 <= i < |ts| && i != m ensures r[i].parentId == ts[i].parentId {
      assert ts[i].id != p.taskId;
    }
  }

  /** The old group, when the record moves to another group. */
  lemma OldGroupContiguous(ts: seq<Task>, m: nat, p: MovePayload)
    requires m < |ts| && ts[m].id == p.taskId && UniqueIds(ts)
    requires ts[m].parentId != p.newParentId && Contiguous(ts, ts[m].parentId)
    ensures Contiguous(ReindexAll(ts, ts[m].parentId, ts[m].orderIndex, p), ts[m].parentId)
  {
    var (op, oi) := (ts[m].parentId, ts[m].orderIndex);
    var r := ReindexAll(ts, op, oi, p);
    ReindexGroups(ts, m, p, op);
    assert m in SiblingPositions(ts, op);
    assert SiblingPositions(r, op) == SiblingPositions(ts, op) - {m};
    forall i | 0 <= i < |r| && r[i].parentId == op
      ensures ts[i].parentId == op && i != m
      ensures r[i].orderIndex == (if ts[i].orderIndex > oi then ts[i].orderIndex - 1 else ts[i].orderIndex)
    {
      assert i in SiblingPositions(r, op);
      assert ts[i].id != p.taskId;
    }
    RemovedContiguous(ts, r, m, op);
  }

  /** Taking record `m` out of a group numbered `0..n-1`, and shifting the
      records after it down by one, gives a group numbered `0..n-2`. */
  lemma RemovedContiguous(ts: seq<Task>, r: seq<Task>, m: nat, op: Option<Id>)
    requires |r| == |ts| && m < |ts| && ts[m].parentId == op && Contiguous(ts, op)
    requires SiblingPositions(r, op) == SiblingPositions(ts, op) - {m} && m in SiblingPositions(ts, op)
    requires forall i :: 0 <= i < |r| && r[i].parentId == op ==>
      && ts[i].parentId == op && i != m
      && r[i].orderIndex == (if ts[i].orderIndex > ts[m].orderIndex then ts[i].orderIndex - 1 else ts[i].orderIndex)
    ensures Contiguous(r, op)
  {
    var (n, oi) := (SiblingCount(ts, op), ts[m].orderIndex);
    assert SiblingCount(r, op) == n - 1;
    forall i | 0 <= i < |r| && r[i].parentId == op
      ensures ts[i].orderIndex != oi && 0 <= ts[i].orderIndex < n
    {
      if i < m {
        assert ts[i].orderIndex != ts[m].orderIndex;
      } else {
        assert ts[m].orderIndex != ts[i].orderIndex;
      }
    }
    forall i | 0 <= i < |r| && r[i].parentId == op
      ensures 0 <= r[i].orderIndex < n - 1
    {
    }
    forall i, j | 0 <= i < j < |r| && r[i].parentId == op && r[j].parentId == op
      ensures r[i].orderIndex != r[j].orderIndex
    {
      assert ts[i].orderIndex != ts[j].orderIndex;
    }
  }

  /** The new group, when the record comes from another group. */
  lemma NewGroupContiguous(ts: seq<Task>, m: nat, p: MovePayload)
    requires m < |ts| && ts[m].id == p.taskId && UniqueIds(ts)
    requires ts[m].parentId != p.newParentId && Contiguous(ts, p.newParentId)
    requires 0 <= p.newOrderIndex <= SiblingCount(ts, p.newParentId)
    ensures Contiguous(ReindexAll(ts, ts[m].parentId, ts[m].orderIndex, p), p.newParentId)
  {
    var (op, oi, np, ni) := (ts[m].parentId, ts[m].orderIndex, p.newParentId, p.newOrderIndex);
    var r := ReindexAll(ts, op, oi, p);
    ReindexGroups(ts, m, p, np);
    assert m !in SiblingPositions(ts, np);
    assert SiblingPositions(r, np) == SiblingPositions(ts, np) + {m};
    forall i | 0 <= i < |r| && r[i].parentId == np && i != m
      ensures ts[i].parentId == np
      ensures r[i].orderIndex == (if ts[i].orderIndex >= ni then ts[i].orderIndex + 1 else ts[i].orderIndex)
    {
      assert i in SiblingPositions(r, np);
      assert ts[i].id != p.taskId;
    }
    InsertedContiguous(ts, r, m, np, ni);
  }

  /** Inserting record `m` at index `ni` of a group numbered `0..n-1`, and
      shifting the records at or after `ni` up by one, gives a group numbered
      `0..n`. */
  lemma InsertedContiguous(ts: seq<Task>, r: seq<Task>, m: nat, np: Option<Id>, ni: int)
    requires |r| == |ts| && m < |r| && Contiguous(ts, np)
    requires 0 <= ni <= SiblingCount(ts, np)
    requires SiblingPositions(r, np) == SiblingPositions(ts, np) + {m} && m !in SiblingPositions(ts, np)
    requires r[m].parentId == np && r[m].orderIndex == ni
    requires forall i :: 0 <= i < |r| && r[i].parentId == np && i != m ==>
      ts[i].parentId == np && r[i].orderIndex == (if ts[i].orderIndex >= ni then ts[i].orderIndex + 1 else ts[i].orderIndex)
    ensures Contiguous(r, np)
  {
    var n := SiblingCount(ts, np);
    assert SiblingCount(r, np) == n + 1;
    forall i | 0 <= i < |r| && r[i].parentId == np
      ensures 0 <= r[i].orderIndex < n + 1
    {
    }
    forall i, j | 0 <= i < j < |r| && r[i].parentId == np && r[j].parentId == np
      ensures r[i].orderIndex != r[j].orderIndex
    {
      if i != m && j != m {
        assert ts[i].orderIndex != ts[j].orderIndex;
      }
    }
  }

  /** The one group, when the record moves within it. */
  lemma SameGroupContiguous(ts: seq<Task>, m: nat, p: MovePayload)
    requires m < |ts| && ts[m].id == p.taskId && UniqueIds(ts)
    requires ts[m].parentId == p.newParentId && Contiguous(ts, p.newParentId)
    requires 0 <= p.newOrderIndex < SiblingCount(ts, p.newParentId)
    ensures Contiguous(ReindexAll(ts, ts[m].parentId, ts[m].orderIndex, p), p.newParentId)
  {
    var (oi, np, ni) := (ts[m].orderIndex, p.newParentId, p.newOrderIndex);
    var r := ReindexAll(ts, np, oi, p);
    ReindexGroups(ts, m, p, np);
    assert SiblingPositions(r, np) == SiblingPositions(ts, np);
    forall i | 0 <= i < |r| && r[i].parentId == np && i != m
      ensures ts[i].parentId == np
      ensures var k := if ts[i].orderIndex > oi then ts[i].orderIndex - 1 else ts[i].orderIndex;
        r[i].orderIndex == if k >= ni then k + 1 else k
    {
      assert i in SiblingPositions(r, np);
      assert ts[i].id != p.taskId;
    }
    RepositionedContiguous(ts, r, m, np, ni);
  }

  /** Taking record `m` out of a group numbered `0..n-1` (the records after it
      shift down by one) and putting it back at index `ni` (the records at or
      after `ni` shift up by one) keeps the group numbered `0..n-1`. */
  lemma RepositionedContiguous(ts: seq<Task>, r: seq<Task>, m: nat, np: Option<Id>, ni: int)
    requires |r| == |ts| && m < |r| && Contiguous(ts, np)
    requires 0 <= ni < SiblingCount(ts, np)
    requires SiblingPositions(r, np) == SiblingPositions(ts, np)
    requires ts[m].parentId == np && r[m].parentId == np && r[m].orderIndex == ni
    requires forall i :: 0 <= i < |r| && r[i].parentId == np && i != m ==>
      && ts[i].parentId == np
      && var k := if ts[i].orderIndex > ts[m].orderIndex then ts[i].orderIndex - 1 else ts[i].orderIndex;
         r[i].orderIndex == if k >= ni then k + 1 else k
    ensures Contiguous(r, np)
  {
    var (n, oi) := (SiblingCount(ts, np), ts[m].orderIndex);
    assert SiblingCount(r, np) == n;
    forall i | 0 <= i < |r| && r[i].parentId == np && i != m
      ensures ts[i].orderIndex != oi && 0 <= ts[i].orderIndex < n
    {
      if i < m {
        assert ts[i].orderIndex != ts[m].orderIndex;
      } else {
        assert ts[m].orderIndex != ts[i].orderIndex;
      }
    }
    forall i | 0 <= i < |r| && r[i].parentId == np
      ensures 0 <= r[i].orderIndex < n
    {
    }
    forall i, j | 0 <= i < j < |r| && r[i].parentId == np && r[j].parentId == np
      ensures r[i].orderIndex != r[j].orderIndex
    {
      if i != m && j != m {
        assert ts[i].orderIndex != ts[j].orderIndex;
      }
    }
  }

  /** The transaction's "data integrity" promise: when the user's old and new
      sibling groups are numbered `0..n-1` and the target index lies within the
      destination group (the moved record left out), both groups are still
      numbered `0..n-1` afterwards, also when they are the same group. */
  lemma MoveKeepsGroupsContiguous(db: seq<Row>, u: Id, p: MovePayload, m: Row)
    requires UniqueRowIds(db) && m in db && m.userId == u && m.task.id == p.taskId
    requires Contiguous(UserTasks(db, u), m.task.parentId)
    requires Contiguous(UserTasks(db, u), p.newParentId)
    requires 0 <= p.newOrderIndex
    requires p.newOrderIndex <= SiblingCount(UserTasks(db, u), p.newParentId) - (if p.newParentId == m.task.parentId then 1 else 0)
    ensures Post(db, Some(u), p).0 == Moved
    ensures Contiguous(UserTasks(Post(db, Some(u), p).1, u), m.task.parentId)
    ensures Contiguous(UserTasks(Post(db, Some(u), p).1, u), p.newParentId)
  {
    var k :| 0 <= k < |db| && db[k] == m;
    assert Owns(db, p.taskId, u);
    var found := FindOwned(db, p.taskId, u).value;
    assert found == m by {
      var j :| 0 <= j < |db| && db[j] == found;
    }
    TransactionRowwise(db, u, p, m);
    var db' := MoveTransaction(db, u, p).value;
    assert Post(db, Some(u), p) == (Moved, db');
    var (op, oi) := (m.task.parentId, m.task.orderIndex);
    UserTasksAfterMove(db, db', u, op, oi, p);
    var ts := UserTasks(db, u);
    UserTasksUnique(db, u);
    assert m.task in ts;
    var mi :| 0 <= mi < |ts| && ts[mi] == m.task;
    if op == p.newParentId {
      SameGroupContiguous(ts, mi, p);
    } else {
      OldGroupContiguous(ts, mi, p);
      NewGroupContiguous(ts, mi, p);
    }
  }
}

=== FILE: order_sort.dfy ===
/** The `orderIndex` sort of `buildTaskTree` (`nodes.sort((a, b) => a.orderIndex - b.orderIndex)`).
    `Array.prototype.sort` is stable, so the model is a stable insertion sort. */
module OrderSort {
  import opened TaskModel

  predicate SortedByOrder(s: seq<Task>) {
    forall i, j :: 0 <= i < j < |s| ==> s[i].orderIndex <= s[j].orderIndex
  }

  /** The records of `s` whose `orderIndex` is `k`, in their order in `s`. */
  function WithOrder(s: seq<Task>, k: int): seq<Task> {
    if |s| == 0 then []
    else if s[0].orderIndex == k then [s[0]] + WithOrder(s[1..], k)
    else WithOrder(s[1..], k)
  }

  /** `out` is `input` sorted by `orderIndex`, records with equal keys kept in input order. */
  ghost predicate StableSortOf(out: seq<Task>, input: seq<Task>) {
    && SortedByOrder(out)
    && multiset(out) == multiset(input)
    && forall k :: WithOrder(out, k) == WithOrder(input, k)
  }

  lemma WithOrderCons(a: Task, s: seq<Task>, k: int)
    ensures WithOrder([a] + s, k) == if a.orderIndex == k then [a] + WithOrder(s, k) else WithOrder(s, k)
  {
    assert ([a] + s)[1..] == s;
  }

  /** Places `x` before the first record whose key is not smaller. */
  function Insert(x: Task, s: seq<Task>): (r: seq<Task>)
    requires SortedByOrder(s)
    ensures SortedByOrder(r)
    ensures multiset(r) == multiset(s) + multiset{x}
  {
    if |s| == 0 then [x]
    else if x.orderIndex <= s[0].orderIndex then
      assert forall i :: 0 <= i < |s| ==> s[0].orderIndex <= s[i].orderIndex;
      ConsSorted(x, s);
      [x] + s
    else
      assert forall i :: 0 <= i < |s[1..]| ==> s[0].orderIndex <= s[1..][i].orderIndex;
      var tail := Insert(x, s[1..]);
      LowerBound(s[0], s[1..], x, tail);
      ConsSorted(s[0], tail);
      assert multiset(s) == multiset{s[0]} + multiset(s[1..]) by {
        assert s == [s[0]] + s[1..];
      }
      [s[0]] + tail
  }

  /** A record no larger than every record of a sorted sequence may go in front. */
  lemma ConsSorted(a: Task, t: seq<Task>)
    requires SortedByOrder(t) && forall i :: 0 <= i < |t| ==> a.orderIndex <= t[i].orderIndex
    ensures SortedByOrder([a] + t)
  {
    var r := [a] + t;
    forall i, j | 0 <= i < j < |r| ensures r[i].orderIndex <= r[j].orderIndex {
      assert r[j] == t[j - 1];
      if i > 0 {
        assert r[i] == t[i - 1];
      }
    }
  }

  /** A key no larger than every key of `s` and than `x.orderIndex` bounds any
      rearrangement of `s` with `x`. */
  lemma LowerBound(a: Task, s: seq<Task>, x: Task, t: seq<Task>)
    requires forall i :: 0 <= i < |s| ==> a.orderIndex <= s[i].orderIndex
    requires a.orderIndex <= x.orderIndex && multiset(t) == multiset(s) + multiset{x}
    ensures forall i :: 0 <= i < |t| ==> a.orderIndex <= t[i].orderIndex
  {
    forall i | 0 <= i < |t| ensures a.orderIndex <= t[i].orderIndex {
      assert t[i] in multiset(t);
      if t[i] != x {
        assert t[i] in multiset(s);
      }
    }
  }

  /** Insertion keeps equal-key records in order: `x` precedes every record of its key in `s`. */
  lemma {:induction false} InsertStable(x: Task, s: seq<Task>, k: int)
    requires SortedByOrder(s)
    ensures WithOrder(Insert(x, s), k) == if x.orderIndex == k then [x] + WithOrder(s, k) else WithOrder(s, k)
  {
    if |s| == 0 {
      WithOrderCons(x, [], k);
    } else if x.orderIndex <= s[0].orderIndex {
      WithOrderCons(x, s, k);
    } else {
      InsertStable(x, s[1..], k);
      WithOrderCons(s[0], Insert(x, s[1..]), k);
      WithOrderCons(s[0], s[1..], k);
      assert s == [s[0]] + s[1..];
    }
  }

  function SortByOrder(s: seq<Task>): (r: seq<Task>)
    ensures StableSortOf(r, s)
  {
    if |s| == 0 then []
    else
      assert s == [s[0]] + s[1..];
      var rest := SortByOrder(s[1..]);
      assert forall k :: WithOrder(Insert(s[0], rest), k) == WithOrder(s, k) by {
        forall k ensures WithOrder(Insert(s[0], rest), k) == WithOrder(s, k) {
          InsertStable(s[0], rest, k);
          WithOrderCons(s[0], s[1..], k);
        }
      }
      Insert(s[0], rest)
  }
}

=== FILE: register_route.dfy ===
/** The `POST` handler of `src/app/api/auth/register/route.ts`: required
    fields first, then password strength, then email uniqueness, then the new
    row. The user table is a sequence of rows; the bcrypt hash and the
    generated primary key are parameters. */
module RegisterRoute {
  import opened Wrappers

  // ------------------------------------------------------- password strength

  predicate IsLower(c: char) { 'a' <= c <= 'z' }
  predicate IsUpper(c: char) { 'A' <= c <= 'Z' }
  /** `\d` without the `u` flag: the ASCII digits only. */
  predicate IsDigit(c: char) { '0' <= c <= '9' }
  predicate IsSpecial(c: char) { c in "@$!%*?&" }

  /** The body's character class `[A-Za-z\d@$!%*?&]`. */
  predicate Allowed(c: char) { IsLower(c) || IsUpper(c) || IsDigit(c) || IsSpecial(c) }

  /** What the password pattern accepts: at least eight characters, all from the
      allowed class, with a lower-case letter, an upper-case letter, a digit and
      a special character somewhere. The look-aheads' `.*` stops at a line
      terminator, but the body admits none, so the look-aheads range over the
      whole password. */
  predicate StrongPassword(pw: string) {
    && |pw| >= 8
    && (forall k :: 0 <= k < |pw| ==> Allowed(pw[k]))
    && (exists k :: 0 <= k < |pw| && IsLower(pw[k]))
    && (exists k :: 0 <= k < |pw| && IsUpper(pw[k]))
    && (exists k :: 0 <= k < |pw| && IsDigit(pw[k]))
    && (exists k :: 0 <= k < |pw| && IsSpecial(pw[k]))
  }

  /** `passwordRegex.test(password)` as one left-to-right scan. */
  method TestPassword(pw: string) returns (ok: bool)
    ensures ok <==> StrongPassword(pw)
  {
    var allAllowed, sawLower, sawUpper, sawDigit, sawSpecial := true, false, false, false, false;
    var i := 0;
    while i < |pw|
      invariant 0 <= i <= |pw|
      invariant allAllowed <==> forall k :: 0 <= k < i ==> Allowed(pw[k])
      invariant sawLower <==> exists k :: 0 <= k < i && IsLower(pw[k])
      invariant sawUpper <==> exists k :: 0 <= k < i && IsUpper(pw[k])
      invariant sawDigit <==> exists k :: 0 <= k < i && IsDigit(pw[k])
      invariant sawSpecial <==> exists k :: 0 <= k < i && IsSpecial(pw[k])
    {
      var c := pw[i];
      allAllowed := allAllowed && Allowed(c);
      sawLower := sawLower || IsLower(c);
      sawUpper := sawUpper || IsUpper(c);
      sawDigit := sawDigit || IsDigit(c);
      sawSpecial := sawSpecial || IsSpecial(c);
      i := i + 1;
    }
    ok := |pw| >= 8 && allAllowed && sawLower && sawUpper && sawDigit && sawSpecial;
  }

  // ----------------------------------------------------------- the handler

  /** A row of the user table. */
  datatype DbUser = DbUser(id: string, email: string, name: Option<string>, password: string)

  /** The row as sent back: every field but the password. */
  datatype PublicUser = PublicUser(id: string, email: string, name: Option<string>)

  /** The JSON body; a missing field is `None`. */
  datatype RegisterBody = RegisterBody(email: Option<string>, name: Option<string>, password: Option<string>)

  datatype Response = BadRequest(message: string) | Registered(user: PublicUser)

  const RequiredMessage: string := "Email and password are required"
  const WeakPasswordMessage: string :=
    "Password must be at least 8 characters long and contain at least one uppercase letter, one lowercase letter, one number, and one special character."
  const EmailExistsMessage: string := "User with this email already exists"

  /** JavaScript truthiness of an optional string: present and non-empty. */
  predicate Truthy(v: Option<string>) { v.Some? && |v.value| > 0 }

  predicate EmailInUse(db: seq<DbUser>, email: string) {
    exists i :: 0 <= i < |db| && db[i].email == email
  }

  predicate UniqueEmails(db: seq<DbUser>) {
    forall i, j :: 0 <= i < |db| && 0 <= j < |db| && db[i].email == db[j].email ==> i == j
  }

  /** `findUnique({ where: { email } })`. */
  function FindByEmail(db: seq<DbUser>, email: string): (r: Option<DbUser>)
    ensures r.None? <==> !EmailInUse(db, email)
    ensures r.Some? ==> r.value in db && r.value.email == email
  {
    if |db| == 0 then None
    else if db[0].email == email then Some(db[0])
    else
      assert EmailInUse(db, email) ==> EmailInUse(db[1..], email) by {
        if EmailInUse(db, email) {
          var i :| 0 <= i < |db| && db[i].email == email;
          assert db[1..][i - 1] == db[i];
        }
      }
      FindByEmail(db[1..], email)
  }

  /** The row without its password. */
  function Public(u: DbUser): (p: PublicUser)
    ensures p.id == u.id && p.email == u.email && p.name == u.name
  {
    PublicUser(u.id, u.email, u.name)
  }

  /** `POST /api/auth/register`, given the primary key the database would
      generate and the hash bcrypt would produce: the response and the table
      afterwards. Every refusal leaves the table as it was. */
  function Post(db: seq<DbUser>, body: RegisterBody, newId: string, hashedPassword: string): (out: (Response, seq<DbUser>))
    ensures !Truthy(body.email) || !Truthy(body.password) ==> out == (BadRequest(RequiredMessage), db)
    ensures Truthy(body.email) && Truthy(body.password) && !StrongPassword(body.password.value) ==>
      out == (BadRequest(WeakPasswordMessage), db)
    ensures (Truthy(body.email) && Truthy(body.password) && StrongPassword(body.password.value) &&
             EmailInUse(db, body.email.value)) ==> out == (BadRequest(EmailExistsMessage), db)
    ensures out.0.Registered? <==>
      Truthy(body.email) && Truthy(body.password) && StrongPassword(body.password.value) && !EmailInUse(db, body.email.value)
    ensures out.0.Registered? ==>
      var row := DbUser(newId, body.email.value, body.name, hashedPassword);
      out.1 == db + [row] && out.0.user == Public(row)
  {
    if !Truthy(body.email) || !Truthy(body.password) then (BadRequest(RequiredMessage), db)
    else if !StrongPassword(body.password.value) then (BadRequest(WeakPasswordMessage), db)
    else match FindByEmail(db, body.email.value)
      case Some(_) => (BadRequest(EmailExistsMessage), db)
      case None =>
        var row := DbUser(newId, body.email.value, body.name, hashedPassword);
        (Registered(Public(row)), db + [row])
  }

  /** A registration keeps the table's emails distinct. */
  lemma PostKeepsUniqueEmails(db: seq<DbUser>, body: RegisterBody, newId: string, hashedPassword: string)
    requires UniqueEmails(db)
    ensures UniqueEmails(Post(db, body, newId, hashedPassword).1)
  {
    var out := Post(db, body, newId, hashedPassword);
    if out.0.Registered? {
      var db' := out.1;
      assert forall k :: 0 <= k < |db| ==> db'[k] == db[k] && db'[k].email != body.email.value;
      assert db'[|db|].email == body.email.value;
    }
  }

  /** Once an email is registered, a second registration with it is refused
      and writes nothing, whatever its password and name. */
  lemma SecondRegistrationRefused(db: seq<DbUser>, first: RegisterBody, second: RegisterBody,
                                   id1: string, id2: string, h1: string, h2: string)
    requires Post(db, first, id1, h1).0.Registered?
    requires second.email == first.email && Truthy(second.password) && StrongPassword(second.password.value)
    ensures Post(Post(db, first, id1, h1).1, second, id2, h2) == (BadRequest(EmailExistsMessage), Post(db, first, id1, h1).1)
  {
    var db' := Post(db, first, id1, h1).1;
    assert db'[|db|].email == first.email.value;
  }
}

=== FILE: task_model.dfy ===
/** The flat task record of `src/types/task.ts` and the queries over a record
    collection that every store operation shares. */
module TaskModel {
  import opened Wrappers

  /** A task identifier. Identifiers are made by `generateId` or by the database
      and are never empty, so a present parent reference is never falsy. */
  type Id = s: string | |s| > 0 witness "1"

  /** Dates are opaque instants, supplied by the caller. */
  type Timestamp = int

  /** One persisted task. `parentId` is `None` for a root: the source's `null`
      and `undefined` are both read as `None`, so the model cannot tell them
      apart where a strict `===` would. */
  datatype Task = Task(
    id: Id,
    title: string,
    content: string,
    parentId: Option<Id>,
    level: int,
    orderIndex: int,
    isCompleted: bool,
    createdAt: Timestamp,
    updatedAt: Timestamp)

  /** The payload of `addTask`; an absent `content` is `None`. */
  datatype CreateTaskInput = CreateTaskInput(
    title: string,
    content: Option<string>,
    parentId: Option<Id>,
    level: int)

  /** The payload of `updateTask`: every field but `id` may be absent (`None`).
      `parentId` is doubly optional: absent means "keep", `Some(None)` means "make root". */
  datatype UpdateTaskInput = UpdateTaskInput(
    id: Id,
    title: Option<string>,
    content: Option<string>,
    parentId: Option<Option<Id>>,
    level: Option<int>,
    orderIndex: Option<int>,
    isCompleted: Option<bool>)

  /** Some record carries identifier `id`. */
  predicate HasId(tasks: seq<Task>, id: Id) {
    exists i :: 0 <= i < |tasks| && tasks[i].id == id
  }

  /** No two records share an identifier (the database's primary key). */
  predicate UniqueIds(tasks: seq<Task>) {
    forall i, j :: 0 <= i < |tasks| && 0 <= j < |tasks| && tasks[i].id == tasks[j].id ==> i == j
  }

  /** The first record with identifier `id`, as `Array.prototype.find` returns it. */
  function Lookup(tasks: seq<Task>, id: Id): (r: Option<Task>)
    ensures r.Some? ==> r.value in tasks && r.value.id == id
    ensures r.None? <==> !HasId(tasks, id)
    ensures r.Some? ==> exists i :: 0 <= i < |tasks| && tasks[i] == r.value &&
                          forall j :: 0 <= j < i ==> tasks[j].id != id
  {
    if |tasks| == 0 then None
    else if tasks[0].id == id then Some(tasks[0])
    else
      var r := Lookup(tasks[1..], id);
      assert HasId(tasks, id) ==> HasId(tasks[1..], id) by {
        if HasId(tasks, id) {
          var i :| 0 <= i < |tasks| && tasks[i].id == id;
          assert tasks[1..][i - 1].id == id;
        }
      }
      if r.Some? then
        ghost var i :| 0 <= i < |tasks[1..]| && tasks[1..][i] == r.value &&
                       forall j :: 0 <= j < i ==> tasks[1..][j].id != id;
        assert tasks[i + 1] == r.value;
        r
      else r
  }

  /** With unique identifiers, the record found for `t.id` is `t` itself. */
  lemma LookupUnique(tasks: seq<Task>, t: Task)
    requires UniqueIds(tasks) && t in tasks
    ensures Lookup(tasks, t.id) == Some(t)
  {
    var i :| 0 <= i < |tasks| && tasks[i] == t;
    var k :| 0 <= k < |tasks| && tasks[k] == Lookup(tasks, t.id).value &&
             forall j :: 0 <= j < k ==> tasks[j].id != t.id;
  }

  /** Positions of the records whose parent reference is `p` (a sibling group). */
  function SiblingPositions(tasks: seq<Task>, p: Option<Id>): set<int> {
    set i | 0 <= i < |tasks| && tasks[i].parentId == p
  }

  /** Size of the sibling group `p`: `tasks.filter(t => t.parentId === p).length`. */
  function SiblingCount(tasks: seq<Task>, p: Option<Id>): nat {
    |SiblingPositions(tasks, p)|
  }

  /** The records of sibling group `p`, in collection order. */
  function ChildrenOf(tasks: seq<Task>, p: Option<Id>): (r: seq<Task>)
    ensures forall t :: t in r <==> t in tasks && t.parentId == p
    ensures |r| <= |tasks|
  {
    if |tasks| == 0 then []
    else if tasks[0].parentId == p then [tasks[0]] + ChildrenOf(tasks[1..], p)
    else ChildrenOf(tasks[1..], p)
  }

  /** Sibling group `p` is numbered `0..n-1` without gaps or duplicates. */
  predicate Contiguous(tasks: seq<Task>, p: Option<Id>) {
    && (forall i :: 0 <= i < |tasks| && tasks[i].parentId == p ==>
          0 <= tasks[i].orderIndex < SiblingCount(tasks, p))
    && (forall i, j :: 0 <= i < j < |tasks| && tasks[i].parentId == p && tasks[j].parentId == p ==>
          tasks[i].orderIndex != tasks[j].orderIndex)
  }
}

=== FILE: task_store.dfy ===
/** The actions of the client task store (`src/store/taskStore.ts`). Every action
    is a pure transformer from one store state to the next; generated ids and
    `new Date()` are parameters. */
module TaskStore {
  import opened Wrappers
  import opened TaskModel
  import opened Hierarchy

  /** The store's data fields. */
  datatype TaskState = TaskState(
    tasks: seq<Task>,
    selectedTaskId: Option<Id>,
    isLoading: bool,
    error: Option<string>)

  // ---------------------------------------------------------------- addTask

  /** `addTask`: appends one record at the end of its sibling group. A root's
      group is every parentless record, where the source's strict comparison
      would separate `null` parents from `undefined` ones. */
  function AddTask(s: TaskState, input: CreateTaskInput, newId: Id, now: Timestamp): (r: TaskState)
    ensures |r.tasks| == |s.tasks| + 1 && r.tasks[..|s.tasks|] == s.tasks
    ensures var t := r.tasks[|s.tasks|];
      && t.id == newId && t.title == input.title && t.parentId == input.parentId && t.level == input.level
      && t.content == (if input.content.Some? then input.content.value else "")
      && t.orderIndex == SiblingCount(s.tasks, input.parentId)
      && !t.isCompleted && t.createdAt == now && t.updatedAt == now
    ensures r.selectedTaskId == s.selectedTaskId && r.isLoading == s.isLoading && r.error == s.error
  {
    var t := Task(newId, input.title, input.content.GetOr(""), input.parentId, input.level,
                  SiblingCount(s.tasks, input.parentId), false, now, now);
    s.(tasks := s.tasks + [t])
  }

  /** Appending `x` adds its position to its own sibling group only. */
  lemma AppendPositions(ts: seq<Task>, x: Task, p: Option<Id>)
    ensures SiblingPositions(ts + [x], p) == SiblingPositions(ts, p) + (if x.parentId == p then {|ts|} else {})
    ensures SiblingCount(ts + [x], p) == SiblingCount(ts, p) + (if x.parentId == p then 1 else 0)
  {
    if x.parentId == p {
      AppendToGroup(ts, x, p);
    } else {
      AppendElsewhere(ts, x, p);
    }
  }

  lemma AppendToGroup(ts: seq<Task>, x: Task, p: Option<Id>)
    requires x.parentId == p
    ensures SiblingPositions(ts + [x], p) == SiblingPositions(ts, p) + {|ts|}
    ensures |ts| !in SiblingPositions(ts, p)
  {
    var r := ts + [x];
    assert forall i :: 0 <= i < |ts| ==> r[i] == ts[i];
  }

  lemma AppendElsewhere(ts: seq<Task>, x: Task, p: Option<Id>)
    requires x.parentId != p
    ensures SiblingPositions(ts + [x], p) == SiblingPositions(ts, p)
  {
    var r := ts + [x];
    assert forall i :: 0 <= i < |ts| ==> r[i] == ts[i];
  }

  /** Appending at the sibling count keeps every sibling group numbered `0..n-1`. */
  lemma AddKeepsContiguous(s: TaskState, input: CreateTaskInput, newId: Id, now: Timestamp, p: Option<Id>)
    requires Contiguous(s.tasks, p)
    ensures Contiguous(AddTask(s, input, newId, now).tasks, p)
  {
    var ts := s.tasks;
    var r := AddTask(s, input, newId, now).tasks;
    var x := r[|ts|];
    assert r == ts + [x];
    if x.parentId == p {
      AppendToGroup(ts, x, p);
      AppendedContiguous(ts, x, p);
    } else {
      AppendElsewhere(ts, x, p);
      assert forall i :: 0 <= i < |ts| ==> r[i] == ts[i];
    }
  }

  /** A record numbered with its group's size extends a group numbered `0..n-1`. */
  lemma AppendedContiguous(ts: seq<Task>, x: Task, p: Option<Id>)
    requires Contiguous(ts, p) && x.parentId == p && x.orderIndex == SiblingCount(ts, p)
    requires SiblingPositions(ts + [x], p) == SiblingPositions(ts, p) + {|ts|} && |ts| !in SiblingPositions(ts, p)
    ensures Contiguous(ts + [x], p)
  {
    var (r, n) := (ts + [x], SiblingCount(ts, p));
    assert SiblingCount(r, p) == n + 1;
    forall i | 0 <= i < |r| && r[i].parentId == p ensures 0 <= r[i].orderIndex < n + 1 {
      if i < |ts| {
        assert r[i] == ts[i];
      }
    }
    forall i, j | 0 <= i < j < |r| && r[i].parentId == p && r[j].parentId == p
      ensures r[i].orderIndex != r[j].orderIndex
    {
      assert r[i] == ts[i];
      if j < |ts| {
        assert r[j] == ts[j];
      }
    }
  }

  /** A fresh identifier: no record carries it or names it as parent. */
  predicate FreshId(tasks: seq<Task>, id: Id) {
    forall i :: 0 <= i < |tasks| ==> tasks[i].id != id && tasks[i].parentId != Some(id)
  }

  lemma {:induction false} LookupAppend(ts: seq<Task>, x: Task, id: Id)
    requires HasId(ts, id)
    ensures Lookup(ts + [x], id) == Lookup(ts, id)
  {
    assert ts == [ts[0]] + ts[1..];
    if ts[0].id != id {
      assert (ts + [x])[1..] == ts[1..] + [x];
      var i :| 0 <= i < |ts| && ts[i].id == id;
      assert ts[1..][i - 1].id == id;
      LookupAppend(ts[1..], x, id);
    }
  }

  /** Appending a record with a fresh identifier changes no old record's parent. */
  lemma ParentAppend(ts: seq<Task>, x: Task, t: Task)
    requires FreshId(ts, x.id) && t in ts
    ensures ParentOf(ts + [x], t) == ParentOf(ts, t)
  {
    if t.parentId.Some? {
      var p := t.parentId.value;
      if HasId(ts, p) {
        LookupAppend(ts, x, p);
      } else {
        var i :| 0 <= i < |ts| && ts[i] == t;
        assert p != x.id;
        assert forall k :: 0 <= k < |ts + [x]| ==> (ts + [x])[k].id != p by {
          forall k | 0 <= k < |ts + [x]| ensures (ts + [x])[k].id != p {
            if k < |ts| {
              assert (ts + [x])[k] == ts[k];
            }
          }
        }
        assert !HasId(ts + [x], p);
      }
    }
  }

  /** Appending a record with a fresh identifier leaves every old depth as it was. */
  lemma {:induction false} DepthAppend(ts: seq<Task>, x: Task, t: Task, f: nat)
    requires FreshId(ts, x.id) && t in ts
    ensures DepthWithin(ts + [x], t, f) == DepthWithin(ts, t, f)
    decreases f
  {
    var r := ts + [x];
    ParentAppend(ts, x, t);
    if f > 0 && ParentOf(ts, t).Some? {
      var (q, g) := (ParentOf(ts, t).value, f - 1);
      DepthAppend(ts, x, q, g);
      DepthUnfold(ts, t, q, g);
      DepthUnfold(r, t, q, g);
    }
  }

  /** Appending a record with a fresh identifier keeps the identifiers distinct. */
  lemma AppendUnique(ts: seq<Task>, x: Task)
    requires UniqueIds(ts) && FreshId(ts, x.id)
    ensures UniqueIds(ts + [x])
  {
    var r := ts + [x];
    forall i, j | 0 <= i < |r| && 0 <= j < |r| && r[i].id == r[j].id ensures i == j {
      if i < |ts| { assert r[i] == ts[i]; }
      if j < |ts| { assert r[j] == ts[j]; }
    }
  }

  /** An old record's chain still ends after a fresh record is appended. */
  lemma OldDepthKept(ts: seq<Task>, x: Task, i: nat)
    requires Acyclic(ts) && FreshId(ts, x.id) && i < |ts|
    ensures Depth(ts + [x], ts[i]).Some?
  {
    DepthAppend(ts, x, ts[i], |ts| + 1);
    DepthFuel(ts, ts[i], |ts|, |ts| + 1);
  }

  /** The appended record's chain ends when its parent's chain does. */
  lemma NewDepthUnderParent(ts: seq<Task>, x: Task, q: Task)
    requires FreshId(ts, x.id) && x.parentId == Some(q.id) && Lookup(ts, q.id) == Some(q)
    requires Depth(ts, q).Some?
    ensures Depth(ts + [x], x).Some?
  {
    var r := ts + [x];
    AppendedParent(ts, x, q);
    DepthAppend(ts, x, q, |ts|);
    DepthStep(r, x, q, |ts|);
    assert |r| == |ts| + 1;
  }

  /** The appended record's parent is the old record its reference names. */
  lemma AppendedParent(ts: seq<Task>, x: Task, q: Task)
    requires x.parentId == Some(q.id) && Lookup(ts, q.id) == Some(q)
    ensures q in ts && ParentOf(ts + [x], x) == Some(q)
  {
    assert HasId(ts, q.id);
    LookupAppend(ts, x, q.id);
  }

  /** The appended record is a root, or its parent reference dangles. */
  lemma NewDepthNoParent(ts: seq<Task>, x: Task)
    requires FreshId(ts, x.id) && x.parentId != Some(x.id)
    requires x.parentId.None? || !HasId(ts, x.parentId.value)
    ensures Depth(ts + [x], x).Some?
  {
    var r := ts + [x];
    if x.parentId.Some? {
      var p := x.parentId.value;
      forall k | 0 <= k < |r| ensures r[k].id != p {
        if k < |ts| { assert r[k] == ts[k]; }
      }
      assert !HasId(r, p);
    }
    assert ParentOf(r, x).None?;
  }

  /** `addTask` keeps the store well formed when the generated id is fresh and
      the new record does not name itself as parent. */
  lemma AddKeepsWellFormed(s: TaskState, input: CreateTaskInput, newId: Id, now: Timestamp)
    requires WellFormed(s.tasks) && FreshId(s.tasks, newId) && input.parentId != Some(newId)
    ensures WellFormed(AddTask(s, input, newId, now).tasks)
  {
    var ts := s.tasks;
    var r := AddTask(s, input, newId, now).tasks;
    var x := r[|ts|];
    assert r == ts + [x];
    AppendUnique(ts, x);
    forall i | 0 <= i < |r| ensures Depth(r, r[i]).Some? {
      if i < |ts| {
        OldDepthKept(ts, x, i);
        assert r[i] == ts[i];
      } else if x.parentId.Some? && HasId(ts, x.parentId.value) {
        var q := Lookup(ts, x.parentId.value).value;
        var k :| 0 <= k < |ts| && ts[k] == q;
        assert Depth(ts, ts[k]).Some?;
        NewDepthUnderParent(ts, x, q);
      } else {
        NewDepthNoParent(ts, x);
      }
    }
  }

  // ------------------------------------------------------------- updateTask

  /** `{ ...task, ...input, updatedAt }`: supplied fields win, absent ones are kept. */
  function Merge(t: Task, input: UpdateTaskInput, now: Timestamp): Task {
    t.(id := input.id,
       title := input.title.GetOr(t.title),
       content := input.content.GetOr(t.content),
       parentId := input.parentId.GetOr(t.parentId),
       level := input.level.GetOr(t.level),
       orderIndex := input.orderIndex.GetOr(t.orderIndex),
       isCompleted := input.isCompleted.GetOr(t.isCompleted),
       updatedAt := now)
  }

  /** `updateTask`: a field merge on the records whose id is `input.id`. */
  function UpdateTask(s: TaskState, input: UpdateTaskInput, now: Timestamp): (r: TaskState)
    ensures |r.tasks| == |s.tasks|
    ensures forall i :: 0 <= i < |s.tasks| && s.tasks[i].id != input.id ==> r.tasks[i] == s.tasks[i]
    ensures forall i :: 0 <= i < |s.tasks| && s.tasks[i].id == input.id ==>
      var (t, u) := (s.tasks[i], r.tasks[i]);
      && u.id == t.id && u.createdAt == t.createdAt && u.updatedAt == now
      && (input.title.Some? ==> u.title == input.title.value) && (input.title.None? ==> u.title == t.title)
      && (input.content.Some? ==> u.content == input.content.value) && (input.content.None? ==> u.content == t.content)
      && (input.parentId.Some? ==> u.parentId == input.parentId.value) && (input.parentId.None? ==> u.parentId == t.parentId)
      && (input.level.Some? ==> u.level == input.level.value) && (input.level.None? ==> u.level == t.level)
      && (input.orderIndex.Some? ==> u.orderIndex == input.orderIndex.value) && (input.orderIndex.None? ==> u.orderIndex == t.orderIndex)
      && (input.isCompleted.Some? ==> u.isCompleted == input.isCompleted.value) && (input.isCompleted.None? ==> u.isCompleted == t.isCompleted)
    ensures r.selectedTaskId == s.selectedTaskId && r.isLoading == s.isLoading && r.error == s.error
  {
    var ts := seq(|s.tasks|, i requires 0 <= i < |s.tasks| =>
      if s.tasks[i].id == input.id then Merge(s.tasks[i], input, now) else s.tasks[i]);
    s.(tasks := ts)
  }

  /** Applying the same update twice is the same as applying it once. */
  lemma UpdateIdempotent(s: TaskState, input: UpdateTaskInput, now: Timestamp)
    ensures UpdateTask(UpdateTask(s, input, now), input, now) == UpdateTask(s, input, now)
  {
    var once := UpdateTask(s, input, now);
    var twice := UpdateTask(once, input, now);
    assert twice.tasks == once.tasks;
  }

  // --------------------------------------------------- toggleTaskCompletion

  /** `toggleTaskCompletion`: flips the completion flag of the records with id `id`. */
  function ToggleTaskCompletion(s: TaskState, id: Id, now: Timestamp): (r: TaskState)
    ensures |r.tasks| == |s.tasks|
    ensures forall i :: 0 <= i < |s.tasks| && s.tasks[i].id != id ==> r.tasks[i] == s.tasks[i]
    ensures forall i :: 0 <= i < |s.tasks| && s.tasks[i].id == id ==>
      r.tasks[i] == s.tasks[i].(isCompleted := !s.tasks[i].isCompleted, updatedAt := now)
    ensures r.selectedTaskId == s.selectedTaskId && r.isLoading == s.isLoading && r.error == s.error
  {
    var ts := seq(|s.tasks|, i requires 0 <= i < |s.tasks| =>
      if s.tasks[i].id == id then s.tasks[i].(isCompleted := !s.tasks[i].isCompleted, updatedAt := now)
      else s.tasks[i]);
    s.(tasks := ts)
  }

  /** Toggling twice restores every record except for its `updatedAt` stamp. */
  lemma ToggleTwice(s: TaskState, id: Id, now1: Timestamp, now2: Timestamp)
    ensures var r := ToggleTaskCompletion(ToggleTaskCompletion(s, id, now1), id, now2);
      && |r.tasks| == |s.tasks|
      && forall i :: 0 <= i < |s.tasks| ==> r.tasks[i] == s.tasks[i].(updatedAt := r.tasks[i].updatedAt)
  {
    var mid := ToggleTaskCompletion(s, id, now1);
    var r := ToggleTaskCompletion(mid, id, now2);
    forall i | 0 <= i < |s.tasks| ensures r.tasks[i] == s.tasks[i].(updatedAt := r.tasks[i].updatedAt) {
      if s.tasks[i].id == id {
        assert mid.tasks[i].id == id;
      }
    }
  }

  // --------------------------------------------------------------- moveTask

  /** The level the client gives a record moved under `newParentId`:
      `newParentId ? (find(parent)?.level || 0) + 1 : 1`. */
  function MovedLevel(tasks: seq<Task>, newParentId: Option<Id>): (l: int)
    ensures newParentId.None? ==> l == 1
    ensures newParentId.Some? && !HasId(tasks, newParentId.value) ==> l == 1
    ensures newParentId.Some? && HasId(tasks, newParentId.value) ==>
      exists i :: 0 <= i < |tasks| && tasks[i].id == newParentId.value && l == tasks[i].level + 1 &&
        forall j :: 0 <= j < i ==> tasks[j].id != newParentId.value
  {
    match newParentId
    case None => 1
    case Some(p) =>
      match Lookup(tasks, p)
      case None => 0 + 1
      case Some(q) => q.level + 1
  }

  /** `moveTask`: rewrites the moved record only; no sibling is renumbered and no
      descendant's level follows. */
  function MoveTask(s: TaskState, taskId: Id, newParentId: Option<Id>, newOrderIndex: int, now: Timestamp): (r: TaskState)
    ensures |r.tasks| == |s.tasks|
    ensures forall i :: 0 <= i < |s.tasks| && s.tasks[i].id != taskId ==> r.tasks[i] == s.tasks[i]
    ensures forall i :: 0 <= i < |s.tasks| && s.tasks[i].id == taskId ==>
      r.tasks[i] == s.tasks[i].(parentId := newParentId, level := MovedLevel(s.tasks, newParentId),
                                orderIndex := newOrderIndex, updatedAt := now)
    ensures r.selectedTaskId == s.selectedTaskId && r.isLoading == s.isLoading && r.error == s.error
  {
    var level := MovedLevel(s.tasks, newParentId);
    var ts := seq(|s.tasks|, i requires 0 <= i < |s.tasks| =>
      if s.tasks[i].id == taskId
      then s.tasks[i].(parentId := newParentId, level := level, orderIndex := newOrderIndex, updatedAt := now)
      else s.tasks[i]);
    s.(tasks := ts)
  }

  /** The first record with a given id is unaffected by rewriting records of another id. */
  lemma {:induction false} LookupOtherUnchanged(a: seq<Task>, b: seq<Task>, taskId: Id, p: Id)
    requires |a| == |b| && p != taskId
    requires forall i :: 0 <= i < |a| ==> b[i].id == a[i].id
    requires forall i :: 0 <= i < |a| && a[i].id != taskId ==> b[i] == a[i]
    ensures Lookup(b, p) == Lookup(a, p)
  {
    if |a| > 0 {
      LookupOtherUnchanged(a[1..], b[1..], taskId, p);
    }
  }

  /** Moving a record back to where it came from undoes the move, up to `updatedAt`,
      when its level agreed with its parent and it was not its own parent. */
  lemma MoveBackRestores(s: TaskState, t: Task, newParentId: Option<Id>, newOrderIndex: int, now1: Timestamp, now2: Timestamp)
    requires UniqueIds(s.tasks) && t in s.tasks && t.parentId != Some(t.id)
    requires t.level == MovedLevel(s.tasks, t.parentId)
    ensures var r := MoveTask(MoveTask(s, t.id, newParentId, newOrderIndex, now1), t.id, t.parentId, t.orderIndex, now2);
      forall i :: 0 <= i < |s.tasks| ==> r.tasks[i] == s.tasks[i].(updatedAt := r.tasks[i].updatedAt)
  {
    var mid := MoveTask(s, t.id, newParentId, newOrderIndex, now1);
    if t.parentId.Some? {
      LookupOtherUnchanged(s.tasks, mid.tasks, t.id, t.parentId.value);
    }
    assert MovedLevel(mid.tasks, t.parentId) == t.level;
    var r := MoveTask(mid, t.id, t.parentId, t.orderIndex, now2);
    var k :| 0 <= k < |s.tasks| && s.tasks[k] == t;
    forall i | 0 <= i < |s.tasks| ensures r.tasks[i] == s.tasks[i].(updatedAt := r.tasks[i].updatedAt) {
      if s.tasks[i].id == t.id {
        assert s.tasks[i] == s.tasks[k];
        assert r.tasks[i] == t.(updatedAt := now2);
      } else {
        assert mid.tasks[i] == s.tasks[i];
      }
    }
  }

  /** The client move leaves the old group with a gap: two roots numbered 0 and 1,
      the first moved to position 1, end up both numbered 1. */
  lemma MoveTaskDoesNotReindex(a: Task, b: Task, now: Timestamp)
    requires a.id != b.id && a.parentId.None? && b.parentId.None?
    requires a.orderIndex == 0 && b.orderIndex == 1
    ensures Contiguous([a, b], None)
    ensures !Contiguous(MoveTask(TaskState([a, b], None, false, None), a.id, None, 1, now).tasks, None)
  {
    assert SiblingPositions([a, b], None) == {0, 1};
    var r := MoveTask(TaskState([a, b], None, false, None), a.id, None, 1, now).tasks;
    assert r[0].orderIndex == 1 && r[1].orderIndex == 1;
  }

  // ------------------------------------------------------------- deleteTask

  /** Depth of the record carrying `id`, or 0 when no record carries it. */
  function IdDepth(tasks: seq<Task>, id: Id): nat
    requires Acyclic(tasks)
  {
    match Lookup(tasks, id)
    case None => 0
    case Some(x) => Depth(tasks, x).value
  }

  /** Each child of `id` lies one level below `id`, within the collection's bound. */
  lemma IdDepthStep(tasks: seq<Task>, c: Task, id: Id)
    requires WellFormed(tasks) && c in tasks && c.parentId == Some(id)
    ensures IdDepth(tasks, c.id) == IdDepth(tasks, id) + 1 <= |tasks| + 1
  {
    LookupUnique(tasks, c);
    match Lookup(tasks, id)
    case None =>
    case Some(x) =>
      ChildDepth(tasks, c, x);
  }

  function Ids(cs: seq<Task>): (r: seq<Id>)
    ensures |r| == |cs| && forall i :: 0 <= i < |cs| ==> r[i] == cs[i].id
  {
    seq(|cs|, i requires 0 <= i < |cs| => cs[i].id)
  }

  /** `getAllDescendants`: the ids of `id`'s children, then each child's descendants. */
  function GetAllDescendants(tasks: seq<Task>, id: Id): (ds: seq<Id>)
    requires WellFormed(tasks)
    ensures forall d :: d in ds ==> HasId(tasks, d)
    decreases |tasks| + 1 - IdDepth(tasks, id), 1, 0
  {
    var children := ChildrenOf(tasks, Some(id));
    Ids(children) + DescendantsOfEach(tasks, id, children)
  }

  /** The descendants of each record of `cs`, all children of `id`, concatenated. */
  function DescendantsOfEach(tasks: seq<Task>, id: Id, cs: seq<Task>): (ds: seq<Id>)
    requires WellFormed(tasks)
    requires forall k :: 0 <= k < |cs| ==> cs[k] in tasks && cs[k].parentId == Some(id)
    ensures forall d :: d in ds ==> HasId(tasks, d)
    decreases |tasks| + 1 - IdDepth(tasks, id), 0, |cs|
  {
    if |cs| == 0 then []
    else
      IdDepthStep(tasks, cs[0], id);
      GetAllDescendants(tasks, cs[0].id) + DescendantsOfEach(tasks, id, cs[1..])
  }

  /** The ids on `t`'s parent chain, a dangling last reference included: the
      upward reference definition of "descendant" that the downward walk is
      checked against. */
  ghost function AncestorIds(tasks: seq<Task>, t: Task): set<Id>
    requires WellFormed(tasks) && t in tasks
    decreases Depth(tasks, t).value
  {
    match t.parentId
    case None => {}
    case Some(p) =>
      match Lookup(tasks, p)
      case None => {p}
      case Some(q) =>
        ChildDepth(tasks, t, q);
        {p} + AncestorIds(tasks, q)
  }

  /** `t` is the record `root` names or lies below it. */
  ghost predicate InSubtree(tasks: seq<Task>, root: Id, t: Task)
    requires WellFormed(tasks) && t in tasks
  {
    t.id == root || root in AncestorIds(tasks, t)
  }

  /** An ancestor's ancestors are ancestors. */
  lemma {:induction false} AncestorsTransitive(tasks: seq<Task>, t: Task, q: Task)
    requires WellFormed(tasks) && t in tasks && q in tasks && q.id in AncestorIds(tasks, t)
    ensures AncestorIds(tasks, q) <= AncestorIds(tasks, t)
    decreases Depth(tasks, t).value
  {
    var p := t.parentId.value;
    LookupUnique(tasks, q);
    if p != q.id {
      var q' := Lookup(tasks, p).value;
      ChildDepth(tasks, t, q');
      AncestorsTransitive(tasks, q', q);
    }
  }

  lemma {:induction false} EachMember(tasks: seq<Task>, id: Id, cs: seq<Task>, x: Id)
    requires WellFormed(tasks)
    requires forall k :: 0 <= k < |cs| ==> cs[k] in tasks && cs[k].parentId == Some(id)
    requires x in DescendantsOfEach(tasks, id, cs)
    ensures exists k :: 0 <= k < |cs| && x in GetAllDescendants(tasks, cs[k].id)
  {
    if x !in GetAllDescendants(tasks, cs[0].id) {
      EachMember(tasks, id, cs[1..], x);
      var k :| 0 <= k < |cs[1..]| && x in GetAllDescendants(tasks, cs[1..][k].id);
      assert cs[1..][k] == cs[k + 1];
    }
  }

  lemma {:induction false} EachCovers(tasks: seq<Task>, id: Id, cs: seq<Task>, k: nat)
    requires WellFormed(tasks)
    requires forall j :: 0 <= j < |cs| ==> cs[j] in tasks && cs[j].parentId == Some(id)
    requires k < |cs|
    ensures forall x :: x in GetAllDescendants(tasks, cs[k].id) ==> x in DescendantsOfEach(tasks, id, cs)
  {
    var rest := cs[1..];
    assert DescendantsOfEach(tasks, id, cs) ==
      GetAllDescendants(tasks, cs[0].id) + DescendantsOfEach(tasks, id, rest);
    if k > 0 {
      EachCovers(tasks, id, rest, k - 1);
      assert rest[k - 1] == cs[k];
    }
  }

  /** The downward walk only collects records lying below `id`. */
  lemma {:induction false} DescendantsSound(tasks: seq<Task>, id: Id, t: Task)
    requires WellFormed(tasks) && t in tasks && t.id in GetAllDescendants(tasks, id)
    ensures id in AncestorIds(tasks, t)
    decreases |tasks| + 1 - IdDepth(tasks, id)
  {
    var cs := ChildrenOf(tasks, Some(id));
    LookupUnique(tasks, t);
    if t.id in Ids(cs) {
      var k :| 0 <= k < |cs| && Ids(cs)[k] == t.id;
      LookupUnique(tasks, cs[k]);
      assert cs[k] == t;
    } else {
      assert t.id in DescendantsOfEach(tasks, id, cs);
      EachMember(tasks, id, cs, t.id);
      var k :| 0 <= k < |cs| && t.id in GetAllDescendants(tasks, cs[k].id);
      var c := cs[k];
      IdDepthStep(tasks, c, id);
      DescendantsSound(tasks, c.id, t);
      AncestorsTransitive(tasks, t, c);
    }
  }

  /** The collected set is closed under "child of". */
  lemma {:induction false} DescendantsClosed(tasks: seq<Task>, id: Id, x: Id, c: Task)
    requires WellFormed(tasks) && x in GetAllDescendants(tasks, id)
    requires c in tasks && c.parentId == Some(x)
    ensures c.id in GetAllDescendants(tasks, id)
    decreases |tasks| + 1 - IdDepth(tasks, id)
  {
    var cs := ChildrenOf(tasks, Some(id));
    if x in Ids(cs) {
      var k :| 0 <= k < |cs| && Ids(cs)[k] == x;
      assert c in ChildrenOf(tasks, Some(cs[k].id));
      var j :| 0 <= j < |ChildrenOf(tasks, Some(cs[k].id))| && ChildrenOf(tasks, Some(cs[k].id))[j] == c;
      assert c.id in Ids(ChildrenOf(tasks, Some(cs[k].id)));
      EachCovers(tasks, id, cs, k);
    } else {
      EachMember(tasks, id, cs, x);
      var k :| 0 <= k < |cs| && x in GetAllDescendants(tasks, cs[k].id);
      IdDepthStep(tasks, cs[k], id);
      DescendantsClosed(tasks, cs[k].id, x, c);
      EachCovers(tasks, id, cs, k);
    }
  }

  /** Every record lying below `id` is collected by the downward walk. */
  lemma {:induction false} DescendantsComplete(tasks: seq<Task>, id: Id, t: Task)
    requires WellFormed(tasks) && t in tasks && id in AncestorIds(tasks, t)
    ensures t.id in GetAllDescendants(tasks, id)
    decreases Depth(tasks, t).value
  {
    var p := t.parentId.value;
    if p == id {
      var cs := ChildrenOf(tasks, Some(id));
      var k :| 0 <= k < |cs| && cs[k] == t;
      assert Ids(cs)[k] == t.id;
    } else {
      var q := Lookup(tasks, p).value;
      ChildDepth(tasks, t, q);
      DescendantsComplete(tasks, id, q);
      DescendantsClosed(tasks, id, q.id, t);
    }
  }

  /** The ids `deleteTask` removes: `id` followed by all its descendants. */
  function DoomedIds(tasks: seq<Task>, id: Id): (d: seq<Id>)
    requires WellFormed(tasks)
    ensures id in d
    ensures forall t :: t in tasks ==> (t.id in d <==> InSubtree(tasks, id, t))
  {
    var d := [id] + GetAllDescendants(tasks, id);
    forall t | t in tasks ensures t.id in d <==> InSubtree(tasks, id, t) {
      if t.id in GetAllDescendants(tasks, id) {
        DescendantsSound(tasks, id, t);
      }
      if id in AncestorIds(tasks, t) {
        DescendantsComplete(tasks, id, t);
      }
    }
    d
  }

  /** `a` is `b` with some records left out, the rest in their original order. */
  ghost predicate IsSubsequence(a: seq<Task>, b: seq<Task>)
    decreases |b|
  {
    if |a| == 0 then true
    else if |b| == 0 then false
    else if a[0] == b[0] then IsSubsequence(a[1..], b[1..])
    else IsSubsequence(a, b[1..])
  }

  /** `tasks.filter(task => !doomed.includes(task.id))`. */
  function Survivors(tasks: seq<Task>, doomed: seq<Id>): (r: seq<Task>)
    ensures forall t :: t in r <==> t in tasks && t.id !in doomed
    ensures IsSubsequence(r, tasks)
    ensures forall t :: multiset(r)[t] == if t.id in doomed then 0 else multiset(tasks)[t]
  {
    if |tasks| == 0 then []
    else
      assert tasks == [tasks[0]] + tasks[1..];
      if tasks[0].id in doomed then Survivors(tasks[1..], doomed)
      else
        var rest := Survivors(tasks[1..], doomed);
        assert ([tasks[0]] + rest)[1..] == rest;
        [tasks[0]] + rest
  }

  /** `deleteTask`: removes the record `id` names and its whole subtree, and clears
      the selection if it pointed into that subtree. */
  function DeleteTask(s: TaskState, id: Id): (r: TaskState)
    requires WellFormed(s.tasks)
    ensures forall t :: t in r.tasks <==> t in s.tasks && !InSubtree(s.tasks, id, t)
    ensures IsSubsequence(r.tasks, s.tasks)
    ensures forall t :: t in s.tasks ==>
      multiset(r.tasks)[t] == if InSubtree(s.tasks, id, t) then 0 else multiset(s.tasks)[t]
    ensures forall t :: t in r.tasks && t.parentId.Some? && HasId(s.tasks, t.parentId.value) ==>
      Lookup(s.tasks, t.parentId.value).value in r.tasks
    ensures s.selectedTaskId.Some? && s.selectedTaskId.value == id ==> r.selectedTaskId.None?
    ensures forall t :: t in s.tasks && s.selectedTaskId == Some(t.id) ==>
      (r.selectedTaskId.None? <==> InSubtree(s.tasks, id, t))
    ensures r.selectedTaskId.Some? ==> r.selectedTaskId == s.selectedTaskId
    ensures s.selectedTaskId.Some? && s.selectedTaskId.value != id && !HasId(s.tasks, s.selectedTaskId.value) ==>
      r.selectedTaskId == s.selectedTaskId
    ensures r.isLoading == s.isLoading && r.error == s.error
  {
    var doomed := DoomedIds(s.tasks, id);
    var survivors := Survivors(s.tasks, doomed);
    forall t | t in survivors && t.parentId.Some? && HasId(s.tasks, t.parentId.value)
      ensures Lookup(s.tasks, t.parentId.value).value in survivors
    {
      var q := Lookup(s.tasks, t.parentId.value).value;
      LookupUnique(s.tasks, q);
      ChildDepth(s.tasks, t, q);
      assert AncestorIds(s.tasks, t) == {q.id} + AncestorIds(s.tasks, q);
      assert !InSubtree(s.tasks, id, q);
    }
    var selection :=
      if s.selectedTaskId.Some? && s.selectedTaskId.value in doomed then None else s.selectedTaskId;
    TaskState(survivors, selection, s.isLoading, s.error)
  }

  // ---------------------------------------------------------- getSelectedTask

  /** `getSelectedTask`: the first record carrying the selected id, if any. */
  function GetSelectedTask(s: TaskState): (r: Option<Task>)
    ensures r.Some? ==> s.selectedTaskId == Some(r.value.id) && r.value in s.tasks
    ensures r.None? <==> s.selectedTaskId.None? || !HasId(s.tasks, s.selectedTaskId.value)
    ensures r.Some? ==> exists i :: 0 <= i < |s.tasks| && s.tasks[i] == r.value &&
                          forall j :: 0 <= j < i ==> s.tasks[j].id != r.value.id
  {
    match s.selectedTaskId
    case None => None
    case Some(id) => Lookup(s.tasks, id)
  }
}

=== FILE: task_tree.dfy ===
/** `buildTaskTree` of `src/store/taskStore.ts`: the flat records become a forest
    whose roots and every child list are sorted by `orderIndex`. */
module TaskTree {
  import opened Wrappers
  import opened TaskModel
  import opened OrderSort
  import opened Hierarchy

  /** `TaskTreeNode`: a record together with its ordered child nodes. */
  datatype TaskNode = TaskNode(task: Task, children: seq<TaskNode>)

  function Records(ns: seq<TaskNode>): (r: seq<Task>)
    ensures |r| == |ns| && forall i :: 0 <= i < |ns| ==> r[i] == ns[i].task
  {
    seq(|ns|, i requires 0 <= i < |ns| => ns[i].task)
  }

  /** `n` shows a record of `tasks` whose children, at every depth below, are
      exactly the records naming it as parent, stably sorted by `orderIndex`. */
  ghost predicate Faithful(tasks: seq<Task>, n: TaskNode)
    decreases n, 1
  {
    && n.task in tasks
    && StableSortOf(Records(n.children), ChildrenOf(tasks, Some(n.task.id)))
    && AllFaithful(tasks, n.children)
  }

  /** Every node of `ns` is `Faithful`. */
  ghost predicate AllFaithful(tasks: seq<Task>, ns: seq<TaskNode>)
    decreases ns, 0
  {
    |ns| == 0 || (Faithful(tasks, ns[0]) && AllFaithful(tasks, ns[1..]))
  }

  lemma {:induction false} AllFaithfulAt(tasks: seq<Task>, ns: seq<TaskNode>, k: nat)
    requires AllFaithful(tasks, ns) && k < |ns|
    ensures Faithful(tasks, ns[k])
  {
    if k > 0 {
      AllFaithfulAt(tasks, ns[1..], k - 1);
    }
  }

  lemma AllFaithfulEach(tasks: seq<Task>, ns: seq<TaskNode>)
    requires AllFaithful(tasks, ns)
    ensures forall k :: 0 <= k < |ns| ==> Faithful(tasks, ns[k])
  {
    forall k | 0 <= k < |ns| ensures Faithful(tasks, ns[k]) {
      AllFaithfulAt(tasks, ns, k);
    }
  }

  /** `t` occurs somewhere in the forest `ns`, at any depth. */
  ghost predicate InForest(ns: seq<TaskNode>, t: Task)
    decreases ns
  {
    exists i :: 0 <= i < |ns| && (ns[i].task == t || InForest(ns[i].children, t))
  }

  /** The records naming `x` as parent lie one level below it, and no deeper than
      the collection is long. */
  lemma ChildDepthBounded(tasks: seq<Task>, c: Task, x: Task)
    requires UniqueIds(tasks) && x in tasks && c in tasks && c.parentId == Some(x.id)
    requires Depth(tasks, x).Some?
    ensures Depth(tasks, c) == Some(Depth(tasks, x).value + 1)
    ensures Depth(tasks, c).value <= |tasks|
  {
    LookupUnique(tasks, x);
    ChainBound(tasks, x, |tasks|);
    DepthFuel(tasks, x, |tasks|, |tasks| - 1);
    assert ParentOf(tasks, c) == Some(x);
    ChainBound(tasks, c, |tasks|);
  }

  /** The node of `t` with its whole subtree below it. */
  function Expand(tasks: seq<Task>, t: Task): (n: TaskNode)
    requires UniqueIds(tasks) && t in tasks && Depth(tasks, t).Some?
    ensures n.task == t && Faithful(tasks, n)
    decreases |tasks| + 1 - Depth(tasks, t).value, 0, 0
  {
    var d := Depth(tasks, t).value;
    var kids := SortByOrder(ChildrenOf(tasks, Some(t.id)));
    KidsOneDeeper(tasks, t, kids);
    TaskNode(t, ExpandAll(tasks, kids, d + 1))
  }

  /** Any arrangement of the records naming `t` as parent lies one level below `t`. */
  lemma KidsOneDeeper(tasks: seq<Task>, t: Task, kids: seq<Task>)
    requires UniqueIds(tasks) && t in tasks && Depth(tasks, t).Some?
    requires multiset(kids) == multiset(ChildrenOf(tasks, Some(t.id)))
    ensures Depth(tasks, t).value <= |tasks|
    ensures forall k :: 0 <= k < |kids| ==> kids[k] in tasks && Depth(tasks, kids[k]) == Some(Depth(tasks, t).value + 1)
  {
    ChainBound(tasks, t, |tasks|);
    forall k | 0 <= k < |kids| ensures kids[k] in tasks && Depth(tasks, kids[k]) == Some(Depth(tasks, t).value + 1) {
      assert kids[k] in multiset(ChildrenOf(tasks, Some(t.id)));
      ChildDepthBounded(tasks, kids[k], t);
    }
  }

  /** The nodes of the records `ts`, all at depth `d`, in the order of `ts`. */
  function ExpandAll(tasks: seq<Task>, ts: seq<Task>, d: nat): (ns: seq<TaskNode>)
    requires UniqueIds(tasks) && d <= |tasks| + 1
    requires forall k :: 0 <= k < |ts| ==> ts[k] in tasks && Depth(tasks, ts[k]) == Some(d)
    ensures Records(ns) == ts && AllFaithful(tasks, ns)
    decreases |tasks| + 1 - d, 1, |ts|
  {
    if |ts| == 0 then []
    else
      var head := Expand(tasks, ts[0]);
      var rest := ExpandAll(tasks, ts[1..], d);
      var ns := [head] + rest;
      assert ns[0] == head && ns[1..] == rest;
      assert Records(ns) == [ts[0]] + ts[1..];
      ns
  }

  /** `buildTaskTree`: the roots are exactly the records without a parent
      reference, stably sorted; every node below is `Faithful`. */
  function BuildTaskTree(tasks: seq<Task>): (forest: seq<TaskNode>)
    requires UniqueIds(tasks)
    ensures StableSortOf(Records(forest), ChildrenOf(tasks, None))
    ensures forall k :: 0 <= k < |forest| ==> Faithful(tasks, forest[k])
  {
    var roots := SortByOrder(ChildrenOf(tasks, None));
    assert forall k :: 0 <= k < |roots| ==> roots[k] in tasks && Depth(tasks, roots[k]) == Some(1) by {
      forall k | 0 <= k < |roots| ensures roots[k] in tasks && Depth(tasks, roots[k]) == Some(1) {
        assert roots[k] in multiset(ChildrenOf(tasks, None));
      }
    }
    var forest := ExpandAll(tasks, roots, 1);
    AllFaithfulEach(tasks, forest);
    forest
  }

  /** Every node of a faithful forest whose roots have a present (or no) parent
      shows a record of `tasks` whose parent reference is not dangling. */
  lemma {:induction false} ForestSound(tasks: seq<Task>, ns: seq<TaskNode>, t: Task)
    requires forall k :: 0 <= k < |ns| ==> Faithful(tasks, ns[k])
    requires forall k :: 0 <= k < |ns| ==> ns[k].task.parentId.None? || HasId(tasks, ns[k].task.parentId.value)
    requires InForest(ns, t)
    ensures t in tasks && (t.parentId.None? || HasId(tasks, t.parentId.value))
    decreases ns
  {
    var i :| 0 <= i < |ns| && (ns[i].task == t || InForest(ns[i].children, t));
    if ns[i].task != t {
      var n := ns[i];
      AllFaithfulEach(tasks, n.children);
      forall k | 0 <= k < |n.children|
        ensures n.children[k].task.parentId.None? || HasId(tasks, n.children[k].task.parentId.value)
      {
        assert n.children[k].task in multiset(ChildrenOf(tasks, Some(n.task.id)));
        assert n.task in tasks;
      }
      ForestSound(tasks, n.children, t);
    }
  }

  /** A record whose parent reference names no record appears nowhere in the tree. */
  lemma DanglingRecordsVanish(tasks: seq<Task>, t: Task)
    requires UniqueIds(tasks)
    requires t.parentId.Some? && !HasId(tasks, t.parentId.value)
    ensures !InForest(BuildTaskTree(tasks), t)
  {
    var forest := BuildTaskTree(tasks);
    forall k | 0 <= k < |forest| ensures forest[k].task.parentId.None? {
      assert forest[k].task in multiset(ChildrenOf(tasks, None));
    }
    if InForest(forest, t) {
      ForestSound(tasks, forest, t);
    }
  }

  /** The parent chain of `t` ends at a real root (not at a dangling reference)
      within `fuel` steps. */
  ghost predicate RootedWithin(tasks: seq<Task>, t: Task, fuel: nat)
    decreases fuel
  {
    match t.parentId
    case None => true
    case Some(p) =>
      fuel > 0 && Lookup(tasks, p).Some? && RootedWithin(tasks, Lookup(tasks, p).value, fuel - 1)
  }

  /** A child of a record shown in a faithful forest is shown too. */
  lemma {:induction false} ChildShown(tasks: seq<Task>, ns: seq<TaskNode>, q: Task, t: Task)
    requires forall k :: 0 <= k < |ns| ==> Faithful(tasks, ns[k])
    requires InForest(ns, q) && t in tasks && t.parentId == Some(q.id)
    ensures InForest(ns, t)
    decreases ns
  {
    var i :| 0 <= i < |ns| && (ns[i].task == q || InForest(ns[i].children, q));
    var n := ns[i];
    if n.task == q {
      assert t in multiset(ChildrenOf(tasks, Some(q.id)));
      assert t in multiset(Records(n.children));
      var k :| 0 <= k < |n.children| && Records(n.children)[k] == t;
      assert InForest(n.children, t);
    } else {
      AllFaithfulEach(tasks, n.children);
      ChildShown(tasks, n.children, q, t);
    }
  }

  /** A record without a parent reference is one of the roots. */
  lemma RootShown(tasks: seq<Task>, t: Task)
    requires UniqueIds(tasks) && t in tasks && t.parentId.None?
    ensures InForest(BuildTaskTree(tasks), t)
  {
    var forest := BuildTaskTree(tasks);
    var roots := ChildrenOf(tasks, None);
    assert t in roots;
    assert multiset(Records(forest)) == multiset(roots);
    assert t in multiset(Records(forest));
    var k :| 0 <= k < |forest| && Records(forest)[k] == t;
    assert forest[k].task == t;
  }

  /** Every record whose parent chain reaches a root appears in the tree. */
  lemma {:induction false} RootedRecordsShown(tasks: seq<Task>, t: Task, fuel: nat)
    requires UniqueIds(tasks) && t in tasks && RootedWithin(tasks, t, fuel)
    ensures InForest(BuildTaskTree(tasks), t)
    decreases fuel
  {
    match t.parentId
    case None =>
      RootShown(tasks, t);
    case Some(p) =>
      var q := Lookup(tasks, p).value;
      RootedRecordsShown(tasks, q, fuel - 1);
      ChildShown(tasks, BuildTaskTree(tasks), q, t);
  }
}

=== FILE: text_utils.dfy ===
/** The string helpers of `src/lib/utils.ts` that the task list uses:
    the level prefix, truncation with an ellipsis and the colour classes of a
    task row. Strings are sequences of Unicode characters. */
module Utils {
  import opened Wrappers

  // ------------------------------------------------------------ level prefix

  /** The name of the exception `String.prototype.repeat` throws for a negative count. */
  const RangeError: string := "RangeError"

  /** `getLevelPrefix(level)`: `'*'.repeat(level)`. */
  function LevelPrefix(level: int): (r: Result<string, string>)
    ensures r.Failure? <==> level < 0
    ensures r.Failure? ==> r.error == RangeError
    ensures r.Success? ==> |r.value| == level && forall k :: 0 <= k < |r.value| ==> r.value[k] == '*'
  {
    if level < 0 then Failure(RangeError)
    else Success(Stars(level))
  }

  function Stars(n: nat): (r: string)
    ensures |r| == n && forall k :: 0 <= k < n ==> r[k] == '*'
  {
    if n == 0 then "" else Stars(n - 1) + "*"
  }

  /** One level deeper is one star longer; so a child's prefix extends its parent's. */
  lemma {:induction false} PrefixExtends(level: nat, deeper: nat)
    requires level <= deeper
    ensures LevelPrefix(deeper).value == LevelPrefix(level).value + Stars(deeper - level)
  {
    var a, b, c := LevelPrefix(deeper).value, LevelPrefix(level).value, Stars(deeper - level);
    assert forall k :: 0 <= k < |a| ==> a[k] == (b + c)[k];
  }

  // ---------------------------------------------------------------- trimming

  /** The characters `String.prototype.trim` removes: the white-space and
      line-terminator code points of section 12.2 and 12.3 of ECMA-262. */
  predicate IsWhitespace(c: char) {
    || c == '\U{0009}' || c == '\U{000B}' || c == '\U{000C}' || c == '\U{0020}' || c == '\U{00A0}'
    || c == '\U{FEFF}' || c == '\U{1680}' || ('\U{2000}' <= c <= '\U{200A}') || c == '\U{202F}'
    || c == '\U{205F}' || c == '\U{3000}'
    || c == '\U{000A}' || c == '\U{000D}' || c == '\U{2028}' || c == '\U{2029}'
  }

  predicate AllWhitespace(s: string) {
    forall k :: 0 <= k < |s| ==> IsWhitespace(s[k])
  }

  /** Neither end of `s` is white space. */
  predicate Trimmed(s: string) {
    |s| == 0 || (!IsWhitespace(s[0]) && !IsWhitespace(s[|s| - 1]))
  }

  /** How many white-space characters `s` starts with. */
  function LeadingSpace(s: string): (n: nat)
    ensures n <= |s| && AllWhitespace(s[..n]) && (n < |s| ==> !IsWhitespace(s[n]))
  {
    if |s| == 0 || !IsWhitespace(s[0]) then 0
    else
      var n := LeadingSpace(s[1..]);
      assert s[..1 + n] == [s[0]] + s[1..][..n];
      1 + n
  }

  /** Where the white space `s` ends with begins. */
  function TrailingSpace(s: string): (e: nat)
    ensures e <= |s| && AllWhitespace(s[e..]) && (e > 0 ==> !IsWhitespace(s[e - 1]))
  {
    if |s| == 0 || !IsWhitespace(s[|s| - 1]) then |s|
    else
      var e := TrailingSpace(s[..|s| - 1]);
      assert forall k :: e <= k < |s| - 1 ==> s[k] == s[..|s| - 1][k];
      e
  }

  /** Where the text `trim` keeps starts and ends. */
  function TrimBounds(s: string): (b: (nat, nat))
    ensures b.0 <= b.1 <= |s|
    ensures AllWhitespace(s[..b.0]) && AllWhitespace(s[b.1..]) && Trimmed(s[b.0..b.1])
  {
    var a := LeadingSpace(s);
    var t := s[a..];
    var e := TrailingSpace(t);
    assert s[a + e..] == t[e..];
    assert s[a..a + e] == t[..e];
    assert e > 0 ==> t[..e][0] == s[a] && t[..e][e - 1] == t[e - 1];
    (a, a + e)
  }

  /** `piece` is what is left of `s` after cutting white space, and only white
      space, from both ends until neither end is white space. */
  ghost predicate TrimOf(piece: string, s: string) {
    && Trimmed(piece)
    && exists a, b :: 0 <= a <= b <= |s| && piece == s[a..b] && AllWhitespace(s[..a]) && AllWhitespace(s[b..])
  }

  /** `String.prototype.trim`: the contiguous middle of `s` left after removing
      white space from both ends. */
  function Trim(s: string): (r: string)
    ensures TrimOf(r, s)
  {
    var (a, b) := TrimBounds(s);
    s[a..b]
  }

  /** Only one piece of `s` is its trim: the contracts that use `TrimOf` fix
      their result. */
  lemma TrimOfUnique(p: string, q: string, s: string)
    requires TrimOf(p, s) && TrimOf(q, s)
    ensures p == q
  {
    var a, b :| 0 <= a <= b <= |s| && p == s[a..b] && AllWhitespace(s[..a]) && AllWhitespace(s[b..]);
    var c, d :| 0 <= c <= d <= |s| && q == s[c..d] && AllWhitespace(s[..c]) && AllWhitespace(s[d..]);
    if a < b {
      TrimmedEnds(s, a, b);
      OutsideCut(s, a, c, d);
      OutsideCut(s, b - 1, c, d);
    }
    if c < d {
      TrimmedEnds(s, c, d);
      OutsideCut(s, c, a, b);
      OutsideCut(s, d - 1, a, b);
    }
    assert a < b <==> c < d;
    if a < b {
      assert a == c && b == d;
    }
  }

  /** The first and last characters of a non-empty trimmed piece are not white space. */
  lemma TrimmedEnds(s: string, a: nat, b: nat)
    requires a < b <= |s| && Trimmed(s[a..b])
    ensures !IsWhitespace(s[a]) && !IsWhitespace(s[b - 1])
  {
    var t := s[a..b];
    assert t[0] == s[a] && t[|t| - 1] == s[b - 1];
  }

  /** A position outside `c..d` of a string whose ends before `c` and from `d`
      on are white space holds white space. */
  lemma OutsideCut(s: string, i: nat, c: nat, d: nat)
    requires c <= d <= |s| && i < |s| && AllWhitespace(s[..c]) && AllWhitespace(s[d..])
    ensures !(c <= i < d) ==> IsWhitespace(s[i])
  {
    if i < c {
      assert s[..c][i] == s[i];
    } else if d <= i {
      assert s[d..][i - d] == s[i];
    }
  }

  /** Trimming twice is trimming once. */
  lemma TrimIdempotent(s: string)
    ensures Trim(Trim(s)) == Trim(s)
  {
    TrimmedFixed(Trim(s));
  }

  /** A string with no white space at either end is its own trim. */
  lemma TrimmedFixed(s: string)
    requires Trimmed(s)
    ensures Trim(s) == s
  {
    assert LeadingSpace(s) == 0;
    assert s[0..] == s;
    assert TrailingSpace(s) == |s|;
    assert TrimBounds(s) == (0, |s|);
  }

  // -------------------------------------------------------------- truncation

  const DefaultMaxLength: int := 50
  const Ellipsis: string := "..."

  /** `text.substring(0, n)`: `substring` clamps its bounds into `0..|text|`. */
  function Substring0(text: string, n: int): (r: string)
    ensures |r| == if n <= 0 then 0 else if n >= |text| then |text| else n
    ensures r <= text
  {
    if n <= 0 then "" else if n >= |text| then text else text[..n]
  }

  /** `truncateText(text, maxLength)`, with `None` for the omitted argument.
      Long text keeps the trim of its first `max(limit, 0)` characters. */
  function TruncateText(text: string, maxLength: Option<int>): (r: string)
    ensures var m := maxLength.GetOr(DefaultMaxLength);
      && (|text| <= m ==> r == text)
      && (|text| > m ==>
            var n := if m < 0 then 0 else m;
            && |r| >= 3 && r[|r| - 3..] == Ellipsis
            && |r| <= n + 3
            && TrimOf(r[..|r| - 3], text[..n]))
  {
    var m := maxLength.GetOr(DefaultMaxLength);
    if |text| <= m then text
    else
      var n := if m < 0 then 0 else m;
      var cut := Substring0(text, m);
      assert cut == text[..n];
      var body := Trim(cut);
      var r := body + Ellipsis;
      assert r[..|r| - 3] == body && r[|r| - 3..] == Ellipsis;
      r
  }

  // ------------------------------------------------------------ row colours

  // Each class string is spelled as its utility classes joined by single
  // spaces, one literal per class, so the palette prefix stands apart.
  const CompletedSelected: string := "bg-success-100 " + "border-success-500 " + "text-success-700"
  const CompletedIdle: string := "bg-success-50 " + "border-success-300 " + "text-success-600"
  const OpenSelected: string := "bg-primary-100 " + "border-primary-500 " + "text-primary-700"
  const OpenIdle: string := "bg-white " + "border-gray-300 " + "text-gray-700 " + "hover:bg-gray-50"

  /** The row paints in the success palette. */
  predicate SuccessPalette(classes: string) { "bg-success-" <= classes }
  /** The row paints in the primary palette. */
  predicate PrimaryPalette(classes: string) { "bg-primary-" <= classes }

  /** `getTaskColorVariant`: completion wins over selection. */
  function TaskColorVariant(isCompleted: bool, isSelected: bool): (r: string)
    ensures SuccessPalette(r) <==> isCompleted
    ensures PrimaryPalette(r) <==> !isCompleted && isSelected
    ensures r == OpenIdle <==> !isCompleted && !isSelected
    ensures isCompleted && isSelected ==> r == CompletedSelected
    ensures isCompleted && !isSelected ==> r == CompletedIdle
    ensures !isCompleted && isSelected ==> r == OpenSelected
  {
    // The palettes first differ at index 3; naming those characters lets the
    // verifier refute the wrong prefix without unfolding whole literals.
    assert "bg-success-"[3] == 's' && "bg-primary-"[3] == 'p';
    if isCompleted then
      assert CompletedSelected[3] == 's' && CompletedIdle[3] == 's';
      if isSelected then CompletedSelected else CompletedIdle
    else if isSelected then
      assert OpenSelected[3] == 'p';
      OpenSelected
    else
      assert OpenIdle[3] == 'w';
      OpenIdle
  }
}

=== FILE: wrappers.dfy ===
/** Failure-carrying wrappers shared by every module of the model. */
module Wrappers {

  /** A value that may be absent: the model's reading of `null` / `undefined`. */
  datatype Option<+T> = None | Some(value: T) {

    /** The value, or `default` when absent (the `x || default` idiom on a present/absent value). */
    function GetOr(default: T): T {
      match this
      case Some(v) => v
      case None => default
    }
  }

  /** Either a value or an error, for operations that throw in the source. */
  datatype Result<+R, +E> = Success(value: R) | Failure(error: E)
}
